=== FILE: README.md ===
# Geomaniac activity engine in Dafny

This project models the activity engine behind Geomaniac's world map. The map has two
activities. In **Review** the player walks through countries, and every country left
behind is marked visited. In **Quiz** the player types the name of a highlighted country.
The model covers:

- **Name normalisation and the answer check** (`country_guesser.dfy`, module `CountryGuesser`).
  - `normalizeName` is ECMAScript `trim`, then `normalize("NFD")`, then removal of every
    `\p{Diacritic}` code point. `checkAnswer` is equality of normalised names.
  - `getRandomCountryData` either commits a country together with its geometry feature, or
    fails and changes nothing (class `CountryGuess`).
  - Also here: `getCountryCoordinates`, and `randomIndex` as a nondeterministic index.
- **Quiz submission** (`country_quiz.dfy`, class `CountryQuiz.CountryQuiz`).
  - The gate on a valid new guess.
  - The correct and incorrect branches.
  - The history record and statistics update, both about the country current at
    submission.
  - Hints, skipping, map clicks, and selection errors routed to `setError`.
- **Review visited-tracking** (`review.dfy`, module `Review`).
  - Before each jump, the previously stored country is pushed as visited.
  - The displayed list is the visited list plus one trailing highlight entry.
- **Region toggles** (`regions_toggle.dfy`, module `RegionsToggle`).
  - The selection record, kept as its entries in insertion order.
  - Toggle all, toggle one, and the all/none predicates.
  - Submit: a loop pushing every entry to the country filters, then a reset.
- **The map overlay** (`map_svg.dfy`, module `MapSvg`).
  - The lazy regular expressions `name="(.+?)"` and
    `<path d="(.+?)" A3="(.+?)" ADMIN="(.+?)"/>`, modelled as a backtracking matcher over
    literal pieces.
  - First-match-or-default attribute extraction, and `matchAll` over the paths.
  - The highlight/others partition, the colour-filter emphasis rule, the drawing order and
    click forwarding.
- **The activity page** (`map_activity.dfy`, module `MapActivity`).
  - The mode (none, review or quiz), the activity buttons and `finishActivity`.
  - Which controls, panels, overlays and handlers are on for a mode and for the number of
    countries the filters leave.

Shared definitions:

- `wrappers.dfy`: `Option` and `Result`.
- `countries.dfy`: the country record as the store hands it out.
- `unicode_tables.dfy`: the whitespace set of `trim`, the line terminators that `.` does not
  match, the `Diacritic` property, and canonical decomposition.

Collaborator hooks whose source is not part of this model are reduced to the calls the core
makes on them. These are the country store, the visited-countries hook, the map controller's
catalog and geometry lookups, the guess record context, the tally, the input field, the country filters and the viewport. Their state is
modelled as fields, and their calls as logs (sequences of call records). Visited entries,
for example, are not deduplicated. Where the core relies on what a collaborator returns, the
model fixes one reading of it; each such reading is listed under "Left out".

## Model

| member | source | states |
|---|---|---|
| CountryGuesser.RandomIndex | src/controllers/CountryGuesser.ts:12-14 | for a positive length the chosen index lies in `[0, length)` |
| CountryGuesser.GetCountryCoordinates | src/controllers/CountryGuesser.ts:16-19 | none for no country, otherwise the pair (latitude, longitude) in that order |
| CountryGuesser.NormalizeName | src/controllers/CountryGuesser.ts:24-29 | undefined stays undefined; a defined string normalises to a string with no Diacritic code point |
| CountryGuesser.StripDiacritics | src/controllers/CountryGuesser.ts:28 | a single code point is dropped iff it is a Diacritic and kept otherwise; with `StripDiacriticsAppend` this makes the result exactly the input's non-Diacritic code points in order. The result holds no Diacritic, is no longer than the input, and is the input itself when the input has none |
| CountryGuesser.TrimStart | src/controllers/CountryGuesser.ts:26 | the leading half of `trim`: the result is no longer than the input and does not start with whitespace |
| CountryGuesser.TrimEnd | src/controllers/CountryGuesser.ts:26 | the trailing half of `trim`: the result is no longer than the input, does not end with whitespace, and keeps the input's first code point |
| CountryGuesser.Trim | src/controllers/CountryGuesser.ts:26 | `trim`'s result is no longer than the input and neither starts nor ends with whitespace |
| CountryGuesser.TrimStartIsSuffix | src/controllers/CountryGuesser.ts:26 | the leading trim leaves the suffix after a whitespace-only prefix |
| CountryGuesser.TrimEndIsPrefix | src/controllers/CountryGuesser.ts:26 | the trailing trim leaves the prefix before a whitespace-only suffix |
| CountryGuesser.TrimEndKeepsHead | src/controllers/CountryGuesser.ts:26 | the trailing trim does not look before the last non-space, so whatever precedes it is kept whole |
| CountryGuesser.Nfd | src/controllers/CountryGuesser.ts:27 | a single code point becomes its canonical decomposition, and with `NfdAppend` every code point is replaced by its decomposition in place; a string whose every code point is its own decomposition is left unchanged |
| CountryGuesser.StripDiacriticsAppend | src/controllers/CountryGuesser.ts:28 | the global replace works code point by code point, so stripping distributes over concatenation |
| CountryGuesser.NfdAppend | src/controllers/CountryGuesser.ts:27 | decomposition distributes over concatenation |
| CountryGuesser.TrimIsInnerSlice | src/controllers/CountryGuesser.ts:26 | `trim` keeps exactly a slice `s[i..j]` with only whitespace outside it, and the result neither starts nor ends with whitespace |
| CountryGuesser.NormalizeIgnoresSurroundingWhitespace | src/controllers/CountryGuesser.ts:25-28 | trimming comes first, so padding a name with whitespace on either side does not change its normal form |
| CountryGuesser.StripNfdIsFoldAll | src/controllers/CountryGuesser.ts:27-28 | decomposing and then stripping equals folding each code point on its own |
| CountryGuesser.NormalizeDiacriticVariants | src/controllers/CountryGuesser.ts:24-29 | names that agree position by position on whitespace and on their stripped decompositions normalise equal |
| CountryGuesser.SpanishNamesNormaliseEqual | src/controllers/CountryGuesser.ts:27-28 | "España" and "Espana" normalise equal |
| CountryGuesser.FoldAllDropsMark | src/controllers/CountryGuesser.ts:27-28 | a code point that decomposes and strips to nothing contributes nothing, wherever it sits |
| CountryGuesser.NormalizeIgnoresInnerMark | src/controllers/CountryGuesser.ts:24-29 | a lone combining mark inserted between two non-blank parts of a name does not change its normal form |
| CountryGuesser.DecomposedSpanishNameNormalisesEqual | src/controllers/CountryGuesser.ts:27-28 | "España" written with a separate combining tilde (U+0303) normalises like "Espana" and like the precomposed "España" |
| CountryGuesser.LeadingMarkShieldsWhitespace | src/controllers/CountryGuesser.ts:25-28 | because stripping follows trimming, a leading combining mark keeps the space after it: U+0301 " x" normalises to " x", while " x" normalises to "x" |
| CountryGuesser.AnswerTarget | src/controllers/CountryGuesser.ts:51 | the target is the current country's name, and the empty name when no country is current |
| CountryGuesser.CheckAnswer | src/controllers/CountryGuesser.ts:50-56 | with a current country, an input is accepted iff it normalises to the same string as that country's name; the name itself is always accepted |
| CountryGuesser.CheckAnswerWithoutCountry | src/controllers/CountryGuesser.ts:50-56 | with no current country the target is the empty name: an input is accepted iff it normalises to empty, so every whitespace-only input is accepted |
| CountryGuesser.CheckAnswerAcceptsVariants | src/controllers/CountryGuesser.ts:50-56 | any whitespace-padded diacritic variant of the current name is accepted |
| CountryGuesser.CountryAt | src/controllers/CountryGuesser.ts:36 | the lookup yields a country iff the index is inside the catalog, and then it is that entry |
| CountryGuesser.CountryGuess.constructor | src/controllers/CountryGuesser.ts:31-33 | the guesser starts with no answer and no feature, over the given catalog and geometry |
| CountryGuesser.CountryGuess.GetRandomCountryData | src/controllers/CountryGuesser.ts:35-48 | on success the answer is the returned catalog country and the feature is its geometry; "no country" fails exactly for an empty catalog; "no feature" names a catalog country without geometry; a failure leaves answer and feature unchanged; with full geometry and a non-empty catalog it succeeds |
| CountryGuesser.CountryGuess.GetCorrectAnswer | src/controllers/CountryGuesser.ts:58-63 | the answer and its feature as held, and the coordinates `getCountryCoordinates` gives for the answer: none without an answer, else its (latitude, longitude) |
| CountryQuiz.LastGuess | src/controllers/useCountryQuiz.ts:62 | the last record of the history, and none exactly for an empty history |
| CountryQuiz.IsValidNewGuess | src/controllers/useCountryQuiz.ts:62 | an empty guess is rejected, a guess equal character for character to the last recorded text is rejected, and every other guess is accepted |
| CountryQuiz.RecordsFor | src/controllers/useCountryQuiz.ts:71-80 | one record with the submitted text, the verdict and the given country's codes when there is a country; none otherwise |
| CountryQuiz.StatsFor | src/controllers/useCountryQuiz.ts:81-86 | one statistics update with the given country's name, alpha-2 code and alpha-3 code when there is a country, carrying the verdict; none otherwise |
| CountryQuiz.Destination | src/controllers/useCountryQuiz.ts:38-40 | the fly-to destination is the country's coordinates |
| CountryQuiz.CountryQuiz.constructor | src/controllers/useCountryQuiz.ts:7-20 | the quiz starts over the given store and input field with a zero tally, an empty history, no statistics update, no error, no flight and no focus request |
| CountryQuiz.CountryQuiz.SetAnswerInputField | src/controllers/useCountryQuiz.ts:27 | the field takes the value when it is mounted; nothing else changes |
| CountryQuiz.CountryQuiz.GiveHint | src/controllers/useCountryQuiz.ts:22-31 | the field receives the full current name when a country is current, otherwise it is unchanged; focus is always requested once |
| CountryQuiz.CountryQuiz.ResetUI | src/controllers/useCountryQuiz.ts:33-36 | the tally is zero and a mounted field is empty; history, statistics, errors and flights are unchanged |
| CountryQuiz.CountryQuiz.FocusUI | src/controllers/useCountryQuiz.ts:38-42 | one flight to the country's coordinates and one focus request |
| CountryQuiz.CountryQuiz.ShowNextCountry | src/controllers/useCountryQuiz.ts:44-52 | either a newly committed country, flown to and focused, or exactly one more selection error with the store untouched; never a failure of its own |
| CountryQuiz.CountryQuiz.SubmitAnswer | src/controllers/useCountryQuiz.ts:54-90 | no field: one "input field not found" error and `false`, nothing else changes. Empty or repeated raw guess: `false`, nothing changes. Valid guess: the result is the answer check against the country current at submission, and one record and one update about that country are appended. Correct: tally zero, field emptied, next country selected. Incorrect: tally plus one, store untouched |
| CountryQuiz.CountryQuiz.RecordGuess | src/controllers/useCountryQuiz.ts:71-87 | history and statistics grow by the records for the given country, kept in step |
| CountryQuiz.CountryQuiz.HandleMapClick | src/controllers/useCountryQuiz.ts:92-95 | flies back to the current country and leaves the store untouched, or selects one when none is current |
| CountryQuiz.CountryQuiz.SkipCountry | src/controllers/useCountryQuiz.ts:97-100 | tally zero, field emptied, nothing recorded, next country selected or the error reported |
| CountryQuiz.CountryQuiz.SubmitTwice | src/controllers/useCountryQuiz.ts:54-64 | a second submission of the same field content never succeeds, and at most one record is added |
| Review.CountryStore.SetByCode | src/controllers/useReview.ts:23 | the first catalog country with the code (no earlier entry has it) becomes current, or no country has that code and the stored country stays |
| Review.CountryStore.SetNext | src/controllers/useReview.ts:28 | the catalog country after the first occurrence of the stored one becomes current, wrapping round to the first entry, and the first entry when nothing is stored; nothing is produced exactly for an empty catalog |
| Review.CountryStore.SetRandom | src/controllers/useReview.ts:28 | some catalog country becomes current; nothing is produced exactly for an empty catalog |
| Review.CountryReview.constructor | src/controllers/useReview.ts:10-13 | the review starts over the given store, review mode and visited list, with no visited-countries call issued |
| Review.CountryReview.PushFor | src/controllers/useReview.ts:15-18 | no mark when nothing is stored, otherwise exactly one push of the stored `GU_A3` with the visited style |
| Review.CountryReview.PushStoredCountry | src/controllers/useReview.ts:15-18 | the visited calls grow by the mark for the stored country, and by nothing when none is stored |
| Review.CountryReview.ClickCountry | src/controllers/useReview.ts:20-24 | the previous country is pushed, then the clicked code is marked, then the store looks it up; the result is a catalog country with that code that is now current, or no such country exists and the stored one stays |
| Review.CountryReview.NextCountry | src/controllers/useReview.ts:26-31 | the previous country is pushed; the store is asked for a random pick iff review mode is random, else for the next; the new country is marked only when one was produced, and none is produced exactly for an empty catalog |
| Review.CountryReview.ClickTwice | src/controllers/useReview.ts:20-24 | clicking X then Y pushes X (not Y) once Y is clicked, and leaves Y current |
| Review.VisitedCountriesHighlight | src/controllers/useReview.ts:33-36 | the visited list unchanged when nothing is stored; otherwise the visited list with earlier entries kept and exactly one trailing highlight entry for the stored `GU_A3` |
| Review.HighlightAddsOne | src/controllers/useReview.ts:33-36 | the displayed list has exactly one highlight more than the visited list when a country is stored |
| RegionsToggle.Lookup | src/components/activity/RegionsToggle.tsx:61 | no value exactly for an absent key; a value read back is an entry of the record |
| RegionsToggle.CreateInitialToggles | src/components/activity/RegionsToggle.tsx:28-30 | the filters' keys, in order, each mapped to false, with no key repeated |
| RegionsToggle.AllSelected | src/components/activity/RegionsToggle.tsx:37 | holds iff every value is true |
| RegionsToggle.NoneSelected | src/components/activity/RegionsToggle.tsx:38 | holds iff no value is true |
| RegionsToggle.AllAndNoneSelected | src/components/activity/RegionsToggle.tsx:37-38 | both predicates hold exactly for the empty record |
| RegionsToggle.SetAll | src/components/activity/RegionsToggle.tsx:41 | keys kept in order, every value equal to the chosen one |
| RegionsToggle.SetAllIdempotent | src/components/activity/RegionsToggle.tsx:40-42 | toggling all to a value twice is toggling it once |
| RegionsToggle.SetAllSelects | src/components/activity/RegionsToggle.tsx:40-42 | after toggling all on, all are selected; after toggling all off, none is |
| RegionsToggle.SetContinent | src/components/activity/RegionsToggle.tsx:62-67 | the record keeps its length when the continent is present and grows by one when it is new |
| RegionsToggle.SetContinentLookup | src/components/activity/RegionsToggle.tsx:62-67 | the toggled continent reads the new value and every other key reads as before |
| RegionsToggle.SetContinentKeys | src/components/activity/RegionsToggle.tsx:62-67 | a present key keeps the key list; a new key is appended at the end |
| RegionsToggle.SetContinentKeepsUniqueKeys | src/components/activity/RegionsToggle.tsx:62-67 | toggling one continent never duplicates a key |
| RegionsToggle.FilterCalls | src/components/activity/RegionsToggle.tsx:44-46 | one `toggleContinentFilter(k, v)` per entry, in entry order |
| RegionsToggle.FilterCallsAppend | src/components/activity/RegionsToggle.tsx:44-46 | one more entry adds exactly its own filter call at the end |
| RegionsToggle.RegionsToggleList.constructor | src/components/activity/RegionsToggle.tsx:34-35 | the selection starts as the initial toggles, and no filter call has been made |
| RegionsToggle.RegionsToggleList.AllContinentsSelected | src/components/activity/RegionsToggle.tsx:37 | the "All" toggle is on iff every continent of the selection is selected |
| RegionsToggle.RegionsToggleList.StartDisabled | src/components/activity/RegionsToggle.tsx:71 | the Start button is disabled iff no continent is selected |
| RegionsToggle.RegionsToggleList.HandleToggleAll | src/components/activity/RegionsToggle.tsx:40-42 | every value becomes the chosen one; on selects all, off disables Start; keys stay unique |
| RegionsToggle.RegionsToggleList.OnChange | src/components/activity/RegionsToggle.tsx:62-67 | the selection becomes the record with that one continent set, keys unique, no filter call |
| RegionsToggle.RegionsToggleList.HandleSubmit | src/components/activity/RegionsToggle.tsx:43-48 | the filter calls grow by one call per entry of the selection, in order, then the selection is reset to the initial toggles, so Start is disabled |
| RegionsToggle.SubmitDisablesStart | src/components/activity/RegionsToggle.tsx:47 | after the reset no continent is selected, so Start is disabled |
| MapSvg.MatchAt | src/components/map/MapSvg.tsx:9-17 | an anchored match covers at least the first literal, ends inside the text and has one capture per group; with `MatchAtSound` and `MatchAtComplete` it succeeds exactly where the regular expression matches |
| MapSvg.MatchAtSound | src/components/map/MapSvg.tsx:9-17 | the matched text is the pattern's literals interleaved with the captures, and every capture is non-empty with no line terminator |
| MapSvg.LazyGroup | src/components/map/MapSvg.tsx:9-17 | a lazy group that matches takes at least `k` characters, ends inside the text, and yields one capture per remaining group |
| MapSvg.LazyGroupSound | src/components/map/MapSvg.tsx:9-17 | a lazy group of at least `k` characters followed by the rest of the pattern covers exactly the matched text |
| MapSvg.FirstMatch | src/components/map/MapSvg.tsx:19 | `exec` finds the leftmost match: no match starts before it, and none is reported only when none exists; by `MatchAtComplete` that is no regular-expression match |
| MapSvg.MatchAtComplete | src/components/map/MapSvg.tsx:9-17 | wherever the pattern's text with non-empty single-line captures occurs, the anchored match succeeds there |
| MapSvg.LazyGroupComplete | src/components/map/MapSvg.tsx:9-17 | a lazy group followed by the rest of the pattern's text succeeds from every trial length up to its capture's length |
| MapSvg.FirstMatchFindsOccurrence | src/components/map/MapSvg.tsx:19 | `exec` finds a match whenever the pattern's text occurs at or after its start position, and that match starts no later than the occurrence |
| MapSvg.AllMatches | src/components/map/MapSvg.tsx:28 | `matchAll` yields real matches in document order, each non-empty and none overlapping the next |
| MapSvg.AllMatchesComplete | src/components/map/MapSvg.tsx:28 | `matchAll` skips no match: no position before the first match, between two consecutive matches or after the last one starts a match, and with no match reported none exists |
| MapSvg.MatchInterleave | src/components/map/MapSvg.tsx:10 | text written from a pattern with quote-free values parses back to exactly those values |
| MapSvg.AttributePattern | src/components/map/MapSvg.tsx:11-17 | the parser `name="(.+?)"` is two quote-delimited literals around one group, the first non-empty |
| MapSvg.AttributeOr | src/components/map/MapSvg.tsx:19-26 | an attribute is its default or a non-empty single-line capture |
| MapSvg.AttributeIsLeftmost | src/components/map/MapSvg.tsx:19-26 | the value is read from the leftmost `name="…"` in the document, and no character after its first is a quote; with no such text anywhere the default is used |
| MapSvg.EmptyValueRunsOn | src/components/map/MapSvg.tsx:19 | an empty value is not read as empty: `w=""` runs on to the next quote |
| MapSvg.WidthParserMatchesStrokeWidth | src/components/map/MapSvg.tsx:11-19 | the width parser has no left boundary and matches inside `stroke-width="…"` |
| MapSvg.Attributes | src/components/map/MapSvg.tsx:19-26 | every overlay attribute is non-empty, whatever the document |
| MapSvg.PathsOf | src/components/map/MapSvg.tsx:28 | one path per match, in order, built from the match's three captures |
| MapSvg.SvgPaths | src/components/map/MapSvg.tsx:28 | one path per match of the path parser |
| MapSvg.SvgPathsAreCapturable | src/components/map/MapSvg.tsx:28 | every parsed path has a non-empty, single-line path, code and name |
| MapSvg.SvgPathsOfDocument | src/components/map/MapSvg.tsx:28 | parsing a document written from path elements gives back those paths, in order |
| MapSvg.FindIndex | src/components/map/MapSvg.tsx:53 | the first path with the highlighted code, or none exactly when no path has it |
| MapSvg.FilterOutIndex | src/components/map/MapSvg.tsx:56 | an index among the entries removes exactly one entry; an index outside them removes none |
| MapSvg.FilterOutIndexRemovesOne | src/components/map/MapSvg.tsx:56 | the filter removes exactly the one entry at the index and keeps every other entry in order |
| MapSvg.Partition | src/components/map/MapSvg.tsx:52-58 | no highlight and all paths when no code matches; else the first match's path data and the paths less that one entry, in order |
| MapSvg.PartitionIsPermutation | src/components/map/MapSvg.tsx:52-58 | the others plus the highlighted entry are exactly the paths, as a multiset |
| MapSvg.PartitionRemovesFirstOnly | src/components/map/MapSvg.tsx:53-57 | earlier paths keep their places, and every later path moves up by one, even one with the same code |
| MapSvg.OtherPathStyle | src/components/map/MapSvg.tsx:89-99 | a non-highlighted path is emphasised iff the filter is off or its country is in the filters, and muted otherwise |
| MapSvg.DrawnPaths | src/components/map/MapSvg.tsx:88-116 | no more paths are drawn than were parsed, only the last one drawn can carry the highlight style, and none does when no path has the highlighted code |
| MapSvg.DrawsEveryPathOnce | src/components/map/MapSvg.tsx:88-116 | every parsed path is drawn exactly once, the highlighted one last in the highlight style, the others styled by the colour filter |
| MapSvg.ForwardedClick | src/components/map/MapSvg.tsx:60-64 | a click is forwarded iff a handler is given and `data-a3` is present and non-empty, and the forwarded value is that code |
| MapSvg.ClickOnDrawnPathForwards | src/components/map/MapSvg.tsx:60-64 | with a handler given, a click on any drawn path forwards that path's code |
| MapActivity.PageLayout | src/pages/MapActivity.tsx:63-168 | each control, panel, overlay and handler is on iff its condition on the mode, the filtered count and the stored country holds |
| MapActivity.QuizShowsPanelOrRegions | src/pages/MapActivity.tsx:100-122 | in a quiz exactly one of the quiz panel and the regions overlay is visible |
| MapActivity.ReviewPanelOrRegions | src/pages/MapActivity.tsx:111-122 | in review the panel is shown, and it is disabled exactly when the regions overlay is visible |
| MapActivity.IdlePageIsPlain | src/pages/MapActivity.tsx:63-168 | with no activity: instructions, no colour filter, no header, side panels, controls, marker, panels or overlay, no quiz map-click handler and `enableOnClick` off |
| MapActivity.QuizHandlerExcludesReviewProps | src/pages/MapActivity.tsx:70-97 | the quiz's map-click handler and the map's `enableOnClick` property are never set together, and the quiz never shows the review popup |
| MapActivity.QuizPathClicksReachReviewHandler | src/pages/MapActivity.tsx:70-97 | the review's click handler is passed to the map in every mode, so in a quiz a click on a path with a code is forwarded to it as well as to the quiz's map-click handler |
| MapActivity.ActivityPage.constructor | src/pages/MapActivity.tsx:130 | `useState<ActivityMode>()`: the page starts with no activity, and with no store or view reset issued |
| MapActivity.ActivityPage.ChooseActivity | src/pages/MapActivity.tsx:145-159 | the mode becomes the chosen activity, and nothing is reset |
| MapActivity.ActivityPage.FinishActivity | src/pages/MapActivity.tsx:57-61 | back to no activity, with the store and the view reset once each |
| MapActivity.ActivityPage.QuizRoundTrip | src/pages/MapActivity.tsx:57-61 | starting a quiz and finishing it restores the idle page, with one store reset and one view reset |

## Left out

- Unicode data: the `Diacritic` property is complete only below U+0370. Decomposition covers
  the Latin-1 Supplement, Latin Extended-A and -B letters and the combining-mark block; every
  other code point decomposes to itself. Canonical reordering of combining marks is not
  modelled. The whitespace set of `trim` is complete.
- `Math.random` is a nondeterministic choice, not floating-point arithmetic; the random
  review pick is a nondeterministic catalog entry.
- Floating-point values are left out: the stroke widths `1 / zoom ** 2` and `2 / zoom ** 2`,
  the overlay bounds, the zoom and the fly-to animation. Coordinates are carried as reals.
- Leaflet, React rendering, the spring animations and the marker popup's own behaviour are not
  modelled; the page is a record of which parts are on.
- The store hook's internals (`useCountryStore`, not part of this model): sequential selection
  follows catalog order with wrap-around from the first occurrence of the stored country, the
  lookup by code takes the first catalog entry with that code, and the random pick is any
  catalog entry. The quiz uses the country guesser's state as its store, as both expose the
  same current answer and random selection.
- CountryGuesser.CountryAt: reads `getCountryData(randomIndex)` of the map controller
  (`src/controllers/MapController`, not part of this model; imported at
  `src/controllers/CountryGuesser.ts:6-9`, called at line 36) as the catalog entry at
  `randomIndex(catalog length)`, with no country for an index outside the catalog, and
  `getCountryGeometry` (line 40) as a lookup in a map from alpha-3 code to feature.
- CountryGuesser.CountryGuess.GetRandomCountryData: inherits that reading: its "no country
  found exactly for an empty catalog" and the index reported with it follow from it, not from
  code shown here.
- CountryQuiz.LastGuess: reads the guess record context's `lastGuess`
  (`src/controllers/useCountryQuiz.ts:19`, context not part of this model) as the last record
  of the guess history.
- CountryQuiz.CountryQuiz.SetAnswerInputField: reads `useInputField`'s `setInputField`
  (hook not part of this model) as setting the field when it is mounted and doing nothing
  otherwise.
- `useVisitedCountries`, the guess record context, the tally, the input field, the filters
  context and the viewport are kept as fields and call logs only. The visited list that
  `visitedCountriesHighlight` reads is the hook's list as given at render time.
- The page imports `useCountryReview` (`src/pages/MapActivity.tsx:7`), while the review
  controller shown is `useReview`. Each file is modelled against its own interface. The
  props passed to `ReviewFloatingPanel` are not modelled.
- The page passes `enableOnClick` to the map, but the map component of this revision has no
  such property. Its click handler forwards whenever `onClick` is given, and the page always
  gives it. `MapActivity.PageLayout` records the property as passed, `MapSvg.ForwardedClick`
  models the map as written, and `MapActivity.QuizPathClicksReachReviewHandler` states the
  consequence.
- JavaScript objects order integer-like keys before the others. The continent record keeps
  plain insertion order, which matches for continent names.
- `initialToggles` is memoised over the filters; the model fixes it when the list is built
  and does not recompute it when the filters change.
- MapSvg.MatchAt: the regular expressions are modelled for literal pieces separated by lazy
  `(.+?)` groups with the `u`-less `.` (any character but a line terminator). That is the only
  form the map uses. The `g` flag's `lastIndex` is not carried between the module-level
  `exec` calls, because each parser is used once.

=== FILE: countries.dfy ===
/**
 * The country record shared by the controllers. Its loader (the map controller and the
 * country store) is not part of this model; a record is treated as already-validated input.
 */
module Countries {

  /** Latitude and longitude, in that order (Leaflet's `LatLngTuple`). */
  type LatLng = (real, real)

  /**
   * One entry of the catalog. `a3` is the alpha-3 key used for geometry lookup and map
   * highlighting (spelled `alpha3` in the older country-guesser revision); `guA3` is the
   * Natural Earth `GU_A3` key the review hook records.
   */
  datatype CountryData = CountryData(
    name: string,
    a2: string,
    a3: string,
    guA3: string,
    latitude: real,
    longitude: real)

  /** A GeoJSON feature, reduced to an identity for its geometry. */
  datatype Feature = Feature(shape: string)
}

=== FILE: country_guesser.dfy ===
/**
 * The country guesser hook: name normalisation, the answer check, the coordinates of a
 * country and the guarded random selection of the next country to guess.
 */
module CountryGuesser {
  import opened Wrappers
  import opened Countries
  import opened UnicodeTables

  // ---------------------------------------------------------------------------------------
  // Name normalisation: trim, then canonical decomposition, then drop every Diacritic.
  // ---------------------------------------------------------------------------------------

  predicate AllWhitespace(s: string)
  {
    forall i :: 0 <= i < |s| ==> IsWhitespace(s[i])
  }

  predicate NoDiacritics(s: string)
  {
    forall i :: 0 <= i < |s| ==> !IsDiacritic(s[i])
  }

  /** Drops the leading whitespace: what is left is no longer, and starts with a non-space. */
  function TrimStart(s: string): (r: string)
    ensures |r| <= |s|
    ensures r == [] || !IsWhitespace(r[0])
  {
    if |s| > 0 && IsWhitespace(s[0]) then TrimStart(s[1..]) else s
  }

  /** Drops the trailing whitespace: what is left is no longer, and ends with a non-space. */
  function TrimEnd(s: string): (r: string)
    ensures |r| <= |s|
    ensures r == [] || !IsWhitespace(r[|r| - 1])
    ensures r != [] ==> r[0] == s[0]
  {
    if |s| > 0 && IsWhitespace(s[|s| - 1]) then TrimEnd(s[..|s| - 1]) else s
  }

  /** The leading whitespace dropped is all there is: what is left is a suffix starting at a non-space. */
  lemma {:induction false} TrimStartIsSuffix(s: string)
    ensures |TrimStart(s)| <= |s| && TrimStart(s) == s[|s| - |TrimStart(s)|..]
    ensures AllWhitespace(s[..|s| - |TrimStart(s)|])
    ensures TrimStart(s) == [] || !IsWhitespace(TrimStart(s)[0])
  {
    if |s| > 0 && IsWhitespace(s[0]) {
      TrimStartIsSuffix(s[1..]);
      var k := |s| - |TrimStart(s)|;
      assert s[..k] == [s[0]] + s[1..][..k - 1];
    }
  }

  /** The trailing whitespace dropped is all there is: what is left is a prefix ending at a non-space. */
  lemma {:induction false} TrimEndIsPrefix(s: string)
    ensures |TrimEnd(s)| <= |s| && TrimEnd(s) == s[..|TrimEnd(s)|]
    ensures AllWhitespace(s[|TrimEnd(s)|..])
    ensures TrimEnd(s) == [] || !IsWhitespace(TrimEnd(s)[|TrimEnd(s)| - 1])
  {
    if |s| > 0 && IsWhitespace(s[|s| - 1]) {
      var n := |s| - 1;
      var u := s[..n];
      TrimEndIsPrefix(u);
      var r := TrimEnd(u);
      assert TrimEnd(s) == r;
      assert u[..|r|] == s[..|r|];
      forall i | |r| <= i < |s|
        ensures IsWhitespace(s[i])
      {
        if i < n {
          assert u[|r|..][i - |r|] == s[i];
        }
      }
    }
  }

  /** ECMAScript `String.prototype.trim`: the result neither starts nor ends with whitespace. */
  function Trim(s: string): (r: string)
    ensures |r| <= |s|
    ensures r == [] || (!IsWhitespace(r[0]) && !IsWhitespace(r[|r| - 1]))
  {
    TrimEnd(TrimStart(s))
  }

  /**
   * `trim` keeps exactly the slice between the leading and the trailing whitespace: the
   * result is `s[i..j]`, everything outside it is whitespace, and it neither starts nor ends
   * with whitespace.
   */
  lemma TrimIsInnerSlice(s: string) returns (i: nat, j: nat)
    ensures i <= j <= |s| && Trim(s) == s[i..j]
    ensures AllWhitespace(s[..i]) && AllWhitespace(s[j..])
    ensures Trim(s) == [] || (!IsWhitespace(Trim(s)[0]) && !IsWhitespace(Trim(s)[|Trim(s)| - 1]))
  {
    TrimStartIsSuffix(s);
    var t := TrimStart(s);
    TrimEndIsPrefix(t);
    i := |s| - |t|;
    j := i + |TrimEnd(t)|;
    assert t == s[i..];
    assert TrimEnd(t) == t[..j - i] == s[i..j];
    assert t[|TrimEnd(t)|..] == s[j..];
  }

  /**
   * `normalize("NFD")`: every code point replaced by its full canonical decomposition.
   * Canonical reordering of adjacent combining marks is not modelled.
   */
  function Nfd(s: string): (r: string)
    ensures |s| == 1 ==> r == Decompose(s[0])
    ensures (forall i :: 0 <= i < |s| ==> Decompose(s[i]) == [s[i]]) ==> r == s
  {
    if s == [] then [] else Decompose(s[0]) + Nfd(s[1..])
  }

  /** `replace(/\p{Diacritic}/gu, "")`: the subsequence of the code points that are not diacritics. */
  function StripDiacritics(s: string): (r: string)
    ensures NoDiacritics(r)
    ensures |r| <= |s|
    ensures NoDiacritics(s) ==> r == s
    ensures |s| == 1 ==> r == (if IsDiacritic(s[0]) then [] else s)
  {
    if s == [] then []
    else if IsDiacritic(s[0]) then StripDiacritics(s[1..])
    else [s[0]] + StripDiacritics(s[1..])
  }

  /** `normalizeName`: undefined stays undefined; a string is trimmed, decomposed and stripped. */
  function NormalizeName(text: Option<string>): (r: Option<string>)
    ensures r.None? <==> text.None?
    ensures r.Some? ==> NoDiacritics(r.value)
  {
    match text
    case None => None
    case Some(t) => Some(StripDiacritics(Nfd(Trim(t))))
  }

  /** What one code point contributes to a normalised name (once it is not trimmed away). */
  function Fold(c: char): string
  {
    StripDiacritics(Decompose(c))
  }

  function FoldAll(s: string): string
  {
    if s == [] then [] else Fold(s[0]) + FoldAll(s[1..])
  }

  /**
   * Two strings that differ only in diacritics: position by position, the code points agree
   * on being whitespace and leave the same text once decomposed and stripped ("ñ" and "n").
   */
  predicate DiacriticVariants(a: string, b: string)
  {
    && |a| == |b|
    && forall i :: 0 <= i < |a| ==>
         (IsWhitespace(a[i]) <==> IsWhitespace(b[i])) && Fold(a[i]) == Fold(b[i])
  }

  lemma {:induction false} StripDiacriticsAppend(a: string, b: string)
    ensures StripDiacritics(a + b) == StripDiacritics(a) + StripDiacritics(b)
  {
    if a != [] {
      var c := a[0];
      assert (a + b)[0] == c;
      assert (a + b)[1..] == a[1..] + b;
      StripDiacriticsAppend(a[1..], b);
      if !IsDiacritic(c) {
        assert StripDiacritics(a + b) == [c] + StripDiacritics(a[1..] + b);
        assert StripDiacritics(a) == [c] + StripDiacritics(a[1..]);
      }
    } else {
      assert a + b == b;
    }
  }

  /** Decomposition works code point by code point, so it distributes over concatenation. */
  lemma {:induction false} NfdAppend(a: string, b: string)
    ensures Nfd(a + b) == Nfd(a) + Nfd(b)
  {
    if a == [] {
      assert a + b == b;
    } else {
      assert (a + b)[0] == a[0];
      assert (a + b)[1..] == a[1..] + b;
      NfdAppend(a[1..], b);
    }
  }

  /** Stripping a decomposed string is folding it code point by code point. */
  lemma {:induction false} StripNfdIsFoldAll(s: string)
    ensures StripDiacritics(Nfd(s)) == FoldAll(s)
  {
    if s != [] {
      StripDiacriticsAppend(Decompose(s[0]), Nfd(s[1..]));
      StripNfdIsFoldAll(s[1..]);
    }
  }

  /** Dropping the same number of code points from two variants leaves variants. */
  lemma VariantsDrop(a: string, b: string, k: nat)
    requires DiacriticVariants(a, b) && k <= |a|
    ensures DiacriticVariants(a[k..], b[k..])
  {
    forall i | 0 <= i < |a| - k
      ensures (IsWhitespace(a[k..][i]) <==> IsWhitespace(b[k..][i])) && Fold(a[k..][i]) == Fold(b[k..][i])
    {
      assert a[k..][i] == a[k + i] && b[k..][i] == b[k + i];
    }
  }

  /** Taking the same number of code points from two variants gives variants. */
  lemma VariantsTake(a: string, b: string, k: nat)
    requires DiacriticVariants(a, b) && k <= |a|
    ensures DiacriticVariants(a[..k], b[..k])
  {
    forall i | 0 <= i < k
      ensures (IsWhitespace(a[..k][i]) <==> IsWhitespace(b[..k][i])) && Fold(a[..k][i]) == Fold(b[..k][i])
    {
      assert a[..k][i] == a[i] && b[..k][i] == b[i];
    }
  }

  lemma {:induction false} FoldAllOfVariants(a: string, b: string)
    requires DiacriticVariants(a, b)
    ensures FoldAll(a) == FoldAll(b)
  {
    if a != [] {
      assert Fold(a[0]) == Fold(b[0]);
      VariantsDrop(a, b, 1);
      FoldAllOfVariants(a[1..], b[1..]);
    }
  }

  /** Two strings of one length with whitespace at the same positions. */
  predicate SameWhitespace(a: string, b: string)
  {
    |a| == |b| && forall i :: 0 <= i < |a| ==> (IsWhitespace(a[i]) <==> IsWhitespace(b[i]))
  }

  lemma VariantsSameWhitespace(a: string, b: string)
    requires DiacriticVariants(a, b)
    ensures SameWhitespace(a, b)
  {
  }

  /** Trimming depends only on where the whitespace is: the same amount goes from each end. */
  lemma {:induction false} TrimSameLength(a: string, b: string)
    requires SameWhitespace(a, b)
    ensures |TrimStart(a)| == |TrimStart(b)| && |TrimEnd(a)| == |TrimEnd(b)|
  {
    if |a| > 0 {
      var n := |a| - 1;
      assert IsWhitespace(a[0]) <==> IsWhitespace(b[0]);
      assert IsWhitespace(a[n]) <==> IsWhitespace(b[n]);
      assert SameWhitespace(a[1..], b[1..]) by {
        forall i | 0 <= i < n
          ensures IsWhitespace(a[1..][i]) <==> IsWhitespace(b[1..][i])
        {
          assert a[1..][i] == a[i + 1] && b[1..][i] == b[i + 1];
        }
      }
      assert SameWhitespace(a[..n], b[..n]) by {
        forall i | 0 <= i < n
          ensures IsWhitespace(a[..n][i]) <==> IsWhitespace(b[..n][i])
        {
          assert a[..n][i] == a[i] && b[..n][i] == b[i];
        }
      }
      TrimSameLength(a[1..], b[1..]);
      TrimSameLength(a[..n], b[..n]);
    }
  }

  lemma TrimStartOfVariants(a: string, b: string)
    requires DiacriticVariants(a, b)
    ensures DiacriticVariants(TrimStart(a), TrimStart(b))
  {
    VariantsSameWhitespace(a, b);
    TrimSameLength(a, b);
    TrimStartIsSuffix(a);
    TrimStartIsSuffix(b);
    VariantsDrop(a, b, |a| - |TrimStart(a)|);
  }

  lemma TrimEndOfVariants(a: string, b: string)
    requires DiacriticVariants(a, b)
    ensures DiacriticVariants(TrimEnd(a), TrimEnd(b))
  {
    VariantsSameWhitespace(a, b);
    TrimSameLength(a, b);
    TrimEndIsPrefix(a);
    TrimEndIsPrefix(b);
    VariantsTake(a, b, |TrimEnd(a)|);
  }

  /** Names that differ only in diacritics normalise to the same string. */
  lemma NormalizeDiacriticVariants(a: string, b: string)
    requires DiacriticVariants(a, b)
    ensures NormalizeName(Some(a)) == NormalizeName(Some(b))
  {
    TrimStartOfVariants(a, b);
    TrimEndOfVariants(TrimStart(a), TrimStart(b));
    FoldAllOfVariants(Trim(a), Trim(b));
    StripNfdIsFoldAll(Trim(a));
    StripNfdIsFoldAll(Trim(b));
  }

  lemma {:induction false} TrimStartSkipsWhitespace(pre: string, s: string)
    requires AllWhitespace(pre)
    ensures TrimStart(pre + s) == TrimStart(s)
  {
    if pre != [] {
      assert (pre + s)[1..] == pre[1..] + s;
      TrimStartSkipsWhitespace(pre[1..], s);
    } else {
      assert pre + s == s;
    }
  }

  lemma {:induction false} TrimEndSkipsWhitespace(s: string, post: string)
    requires AllWhitespace(post)
    ensures TrimEnd(s + post) == TrimEnd(s)
  {
    if post != [] {
      var n := |post| - 1;
      assert (s + post)[..|s + post| - 1] == s + post[..n];
      TrimEndSkipsWhitespace(s, post[..n]);
    } else {
      assert s + post == s;
    }
  }

  /** Trimming the start does not look past the first non-space, so what follows is kept whole. */
  lemma {:induction false} TrimStartKeepsTail(s: string, post: string)
    requires !AllWhitespace(s)
    ensures TrimStart(s + post) == TrimStart(s) + post
  {
    assert |s| > 0;
    if IsWhitespace(s[0]) {
      assert !AllWhitespace(s[1..]) by {
        var i :| 0 <= i < |s| && !IsWhitespace(s[i]);
        assert s[1..][i - 1] == s[i];
      }
      assert (s + post)[1..] == s[1..] + post;
      TrimStartKeepsTail(s[1..], post);
    }
  }

  lemma TrimIgnoresSurroundingWhitespace(pre: string, s: string, post: string)
    requires AllWhitespace(pre) && AllWhitespace(post)
    ensures Trim(pre + s + post) == Trim(s)
  {
    TrimStartSkipsWhitespace(pre, s + post);
    assert pre + s + post == pre + (s + post);
    if AllWhitespace(s) {
      assert AllWhitespace(s + post);
      TrimStartSkipsWhitespace(s + post, []);
      TrimStartSkipsWhitespace(s, []);
      assert s + post + [] == s + post && s + [] == s;
    } else {
      TrimStartKeepsTail(s, post);
      TrimEndSkipsWhitespace(TrimStart(s), post);
    }
  }

  /** Trimming happens first: surrounding whitespace never reaches the comparison. */
  lemma NormalizeIgnoresSurroundingWhitespace(pre: string, s: string, post: string)
    requires AllWhitespace(pre) && AllWhitespace(post)
    ensures NormalizeName(Some(pre + s + post)) == NormalizeName(Some(s))
  {
    TrimIgnoresSurroundingWhitespace(pre, s, post);
  }

  lemma ConcatAssoc(a: string, b: string, c: string)
    ensures a + (b + c) == a + b + c
  {
  }

  /** Trimming the end does not look before the last non-space, so what precedes is kept whole. */
  lemma {:induction false} TrimEndKeepsHead(pre: string, s: string)
    requires !AllWhitespace(s)
    ensures TrimEnd(pre + s) == pre + TrimEnd(s)
    decreases |s|
  {
    assert |s| > 0;
    var n := |s| - 1;
    assert (pre + s)[|pre + s| - 1] == s[n];
    if IsWhitespace(s[n]) {
      assert !AllWhitespace(s[..n]) by {
        var i :| 0 <= i < |s| && !IsWhitespace(s[i]);
        assert s[..n][i] == s[i];
      }
      assert (pre + s)[..|pre + s| - 1] == pre + s[..n];
      TrimEndKeepsHead(pre, s[..n]);
    }
  }

  lemma {:induction false} FoldAllAppend(a: string, b: string)
    ensures FoldAll(a + b) == FoldAll(a) + FoldAll(b)
  {
    if a == [] {
      assert a + b == b;
    } else {
      assert (a + b)[0] == a[0];
      assert (a + b)[1..] == a[1..] + b;
      FoldAllAppend(a[1..], b);
    }
  }

  /** A code point that folds to nothing contributes nothing, wherever it sits. */
  lemma FoldAllDropsMark(p: string, m: char, q: string)
    requires Fold(m) == []
    ensures FoldAll(p + [m] + q) == FoldAll(p + q)
  {
    var pm := p + [m];
    FoldAllAppend(pm, q);
    FoldAllAppend(p, [m]);
    assert [m][1..] == [];
    assert FoldAll([m]) == [];
    assert FoldAll(pm) == FoldAll(p);
    FoldAllAppend(p, q);
  }

  /**
   * A code point that folds to nothing (a lone combining mark), inserted between two parts of a
   * name that are not blank, does not change the normalised name.
   */
  lemma NormalizeIgnoresInnerMark(x: string, m: char, y: string)
    requires !AllWhitespace(x) && !AllWhitespace(y) && Fold(m) == []
    ensures NormalizeName(Some(x + [m] + y)) == NormalizeName(Some(x + y))
  {
    var t, e := TrimStart(x), TrimEnd(y);
    assert Trim(x + [m] + y) == t + [m] + e by {
      ConcatAssoc(x, [m], y);
      TrimStartKeepsTail(x, [m] + y);
      ConcatAssoc(t, [m], y);
      TrimEndKeepsHead(t + [m], y);
    }
    assert Trim(x + y) == t + e by {
      TrimStartKeepsTail(x, y);
      TrimEndKeepsHead(t, y);
    }
    StripNfdIsFoldAll(t + [m] + e);
    StripNfdIsFoldAll(t + e);
    FoldAllDropsMark(t, m, e);
  }

  lemma EnyeFoldsToN()
    ensures Fold('ñ') == Fold('n') == "n"
  {
    assert Decompose('ñ') == ['n', '\U{0303}'];
    assert Decompose('n') == ['n'];
  }

  /** The worked example: "España" and "Espana" normalise equal. */
  lemma SpanishNamesNormaliseEqual()
    ensures NormalizeName(Some("España")) == NormalizeName(Some("Espana"))
  {
    var a, b := "España", "Espana";
    forall i | 0 <= i < |a|
      ensures (IsWhitespace(a[i]) <==> IsWhitespace(b[i])) && Fold(a[i]) == Fold(b[i])
    {
      if i == 4 {
        assert a[i] == 'ñ' && b[i] == 'n';
        EnyeFoldsToN();
      } else {
        assert a[i] == b[i];
      }
    }
    NormalizeDiacriticVariants(a, b);
  }

  /**
   * "España" typed with a separate combining tilde (n followed by U+0303) normalises like
   * "Espana", and so like the precomposed "España".
   */
  lemma DecomposedSpanishNameNormalisesEqual()
    ensures NormalizeName(Some("Espan\U{0303}a")) == NormalizeName(Some("Espana"))
    ensures NormalizeName(Some("Espan\U{0303}a")) == NormalizeName(Some("España"))
  {
    var x, y := "Espan", "a";
    assert !IsWhitespace(x[0]) && !IsWhitespace(y[0]);
    assert Fold('\U{0303}') == [] by {
      assert Decompose('\U{0303}') == ['\U{0303}'];
    }
    NormalizeIgnoresInnerMark(x, '\U{0303}', y);
    assert x + ['\U{0303}'] + y == "Espan\U{0303}a";
    assert x + y == "Espana";
    SpanishNamesNormaliseEqual();
  }

  lemma DecomposeFixesAsciiAndMarks()
    ensures Decompose('\U{0301}') == ['\U{0301}']
    ensures Decompose(' ') == [' ']
    ensures Decompose('x') == ['x']
  {
  }

  lemma {:induction false} LeadingMarkIsKept()
    ensures Trim("\U{0301} x") == "\U{0301} x"
    ensures Nfd("\U{0301} x") == "\U{0301} x"
  {
    var s := "\U{0301} x";
    assert TrimStart(s) == s;
    assert TrimEnd(s) == s;
    DecomposeFixesAsciiAndMarks();
    assert Nfd(s[3..]) == "";
    assert Nfd(s[2..]) == "x";
    assert Nfd(s[1..]) == " x";
  }

  /**
   * Stripping follows trimming, so a combining mark in front of a space shields that space
   * from the trim: U+0301 followed by " x" normalises to " x", where " x" normalises to "x".
   */
  lemma LeadingMarkShieldsWhitespace()
    ensures NormalizeName(Some("\U{0301} x")) == Some(" x")
    ensures NormalizeName(Some(" x")) == Some("x")
  {
    LeadingMarkIsKept();
    var s := "\U{0301} x";
    assert StripDiacritics(s[2..]) == "x";
    assert StripDiacritics(s[1..]) == " x";
    var t := " x";
    assert TrimStart(t) == "x" by { assert TrimStart(t[1..]) == "x"; }
    assert TrimEnd("x") == "x";
    DecomposeFixesAsciiAndMarks();
    assert Nfd("x") == "x";
  }

  // ---------------------------------------------------------------------------------------
  // The answer check and the coordinates of a country.
  // ---------------------------------------------------------------------------------------

  /** `countryAnswer?.name || ""`: with no current country the target is the empty name. */
  function AnswerTarget(countryAnswer: Option<CountryData>): (r: string)
    ensures countryAnswer.None? ==> r == ""
    ensures countryAnswer.Some? ==> r == countryAnswer.value.name
  {
    if countryAnswer.Some? then countryAnswer.value.name else ""
  }

  /**
   * `checkAnswer`: the input and the current country's name normalise equal; in particular the
   * current country's own name is always accepted.
   */
  function CheckAnswer(countryAnswer: Option<CountryData>, userInput: string): (r: bool)
    ensures countryAnswer.Some? ==>
              (r <==> NormalizeName(Some(userInput)) == NormalizeName(Some(countryAnswer.value.name)))
    ensures countryAnswer.Some? && userInput == countryAnswer.value.name ==> r
  {
    NormalizeName(Some(userInput)) == NormalizeName(Some(AnswerTarget(countryAnswer)))
  }

  /** With no current country, an input checks as correct iff it normalises to the empty name. */
  lemma CheckAnswerWithoutCountry(userInput: string)
    ensures CheckAnswer(None, userInput) <==> StripDiacritics(Nfd(Trim(userInput))) == []
    ensures AllWhitespace(userInput) ==> CheckAnswer(None, userInput)
  {
    assert NormalizeName(Some(AnswerTarget(None))) == Some([]) by {
      assert Trim("") == "";
    }
    if AllWhitespace(userInput) {
      TrimStartSkipsWhitespace(userInput, []);
      assert userInput + [] == userInput;
      assert Trim(userInput) == "";
    }
  }

  /** Every diacritic variant of the current country's name, padded with spaces, is accepted. */
  lemma CheckAnswerAcceptsVariants(country: CountryData, pre: string, variant: string, post: string)
    requires AllWhitespace(pre) && AllWhitespace(post)
    requires DiacriticVariants(variant, country.name)
    ensures CheckAnswer(Some(country), pre + variant + post)
  {
    NormalizeIgnoresSurroundingWhitespace(pre, variant, post);
    NormalizeDiacriticVariants(variant, country.name);
  }

  /** `getCountryCoordinates`: null for no country, else (latitude, longitude) in that order. */
  function GetCountryCoordinates(country: Option<CountryData>): (r: Option<LatLng>)
    ensures r.None? <==> country.None?
    ensures r.Some? ==> r.value.0 == country.value.latitude && r.value.1 == country.value.longitude
  {
    if country.None? then None else Some((country.value.latitude, country.value.longitude))
  }

  // ---------------------------------------------------------------------------------------
  // Random selection.
  // ---------------------------------------------------------------------------------------

  /** `randomIndex`: `Math.floor(Math.random() * length)`, a nondeterministic index. */
  method RandomIndex(length: nat) returns (index: nat)
    ensures length > 0 ==> index < length
    ensures length == 0 ==> index == 0
  {
    if length == 0 {
      index := 0;
    } else {
      index :| 0 <= index < length;
    }
  }

  /** The map controller's lookup of the catalog entry at a chosen index. */
  function CountryAt(catalog: seq<CountryData>, index: nat): (r: Option<CountryData>)
    ensures r.Some? <==> index < |catalog|
    ensures r.Some? ==> r.value == catalog[index]
  {
    if index < |catalog| then Some(catalog[index]) else None
  }

  /** The two errors `getRandomCountryData` throws. */
  datatype SelectionError =
    | NoCountryFound(index: nat)
    | NoFeatureFound(name: string)

  /** What the hook returns as `countryCorrectAnswer`. */
  datatype CorrectAnswer = CorrectAnswer(
    data: Option<CountryData>,
    feature: Option<Feature>,
    coordinates: Option<LatLng>)

  /**
   * The hook's state: the current answer (held by the map context) and its geometry feature,
   * over a fixed catalog and the geometry lookup `getCountryGeometry`.
   */
  class CountryGuess {
    const catalog: seq<CountryData>
    const geometry: map<string, Feature>
    var countryAnswer: Option<CountryData>
    var countryFeature: Option<Feature>

    /** A current answer is a catalog entry that has geometry, and the feature is its geometry. */
    ghost predicate Valid()
      reads this
    {
      countryAnswer.Some? ==> Committed(countryAnswer.value)
    }

    ghost predicate Committed(c: CountryData)
      reads this
    {
      c in catalog && c.a3 in geometry && countryFeature == Some(geometry[c.a3])
    }

    constructor (catalog: seq<CountryData>, geometry: map<string, Feature>)
      ensures Valid()
      ensures this.catalog == catalog && this.geometry == geometry
      ensures countryAnswer == None && countryFeature == None
    {
      this.catalog := catalog;
      this.geometry := geometry;
      countryAnswer := None;
      countryFeature := None;
    }

    /**
     * `getRandomCountryData`: pick an index; fail with no country at that index, or with no
     * geometry for that country, changing nothing; otherwise commit the feature, then the answer.
     */
    method GetRandomCountryData() returns (r: Result<CountryData, SelectionError>)
      requires Valid()
      modifies this
      ensures Valid()
      ensures r.Success? ==> countryAnswer == Some(r.value) && Committed(r.value)
      ensures r.Failure? ==> countryAnswer == old(countryAnswer) && countryFeature == old(countryFeature)
      ensures r.Failure? && r.error.NoCountryFound? <==> catalog == []
      ensures r.Failure? && r.error.NoCountryFound? ==> r.error.index == 0
      ensures r.Failure? && r.error.NoFeatureFound? ==>
                exists c :: c in catalog && c.a3 !in geometry && c.name == r.error.name
      ensures catalog != [] && (forall c :: c in catalog ==> c.a3 in geometry) ==> r.Success?
    {
      var countryIndex := RandomIndex(|catalog|);
      var country := CountryAt(catalog, countryIndex);
      if country.None? {
        return Failure(NoCountryFound(countryIndex));
      }
      var c := country.value;
      if c.a3 in geometry {
        countryFeature := Some(geometry[c.a3]);
      } else {
        return Failure(NoFeatureFound(c.name));
      }
      countryAnswer := Some(c);
      return Success(c);
    }

    /** `countryCorrectAnswer`: the answer, its feature and its coordinates. */
    function GetCorrectAnswer(): (r: CorrectAnswer)
      reads this
      ensures r.coordinates.Some? <==> r.data.Some?
      ensures r.data == countryAnswer && r.feature == countryFeature
      ensures r.coordinates == GetCountryCoordinates(countryAnswer)
      ensures r.coordinates.Some? ==>
                r.coordinates.value == (countryAnswer.value.latitude, countryAnswer.value.longitude)
    {
      CorrectAnswer(countryAnswer, countryFeature, GetCountryCoordinates(countryAnswer))
    }
  }
}

=== FILE: country_quiz.dfy ===
/**
 * The quiz controller hook: submitting a guess, hints, skipping and map clicks, over the
 * country store (the country guesser's state), the answer input field, the guess record
 * context (history and statistics), the tries tally and the map viewport.
 */
module CountryQuiz {
  import opened Wrappers
  import opened Countries
  import opened CountryGuesser

  /** One entry of the guess history. */
  datatype GuessRecord = GuessRecord(text: string, isCorrect: bool, a2: string, a3: string)

  /** One call to `updateCountryStats`. */
  datatype StatsUpdate = StatsUpdate(name: string, isCorrect: bool, a2: string, a3: string)

  /** What the hook reports through `setError`. */
  datatype QuizError =
    | InputFieldNotFound
    | SelectionFailed(cause: SelectionError)

  /** `lastGuess`: the most recently recorded guess, if any. */
  function LastGuess(history: seq<GuessRecord>): (r: Option<GuessRecord>)
    ensures r.None? <==> history == []
    ensures r.Some? ==> r.value == history[|history| - 1]
  {
    if history == [] then None else Some(history[|history| - 1])
  }

  /**
   * `isValidNewGuess`: the raw guess is non-empty and is not, character for character, the
   * text of the last recorded guess (no normalisation is applied to this comparison).
   */
  function IsValidNewGuess(userGuess: string, lastGuess: Option<GuessRecord>): (r: bool)
    ensures userGuess == [] ==> !r
    ensures lastGuess.Some? && userGuess == lastGuess.value.text ==> !r
    ensures userGuess != [] && (lastGuess.None? || userGuess != lastGuess.value.text) ==> r
  {
    |userGuess| > 0 && (lastGuess.None? || userGuess != lastGuess.value.text)
  }

  /** The history records a submission issues: one for the country current at submission, if any. */
  function RecordsFor(current: Option<CountryData>, text: string, isCorrect: bool): (r: seq<GuessRecord>)
    ensures |r| == if current.Some? then 1 else 0
    ensures current.Some? ==> r[0].a2 == current.value.a2 && r[0].a3 == current.value.a3
    ensures forall g :: g in r ==> g.text == text && g.isCorrect == isCorrect
  {
    if current.Some? then [GuessRecord(text, isCorrect, current.value.a2, current.value.a3)] else []
  }

  /** The statistics updates a submission issues, in step with `RecordsFor`. */
  function StatsFor(current: Option<CountryData>, isCorrect: bool): (r: seq<StatsUpdate>)
    ensures |r| == if current.Some? then 1 else 0
    ensures current.Some? ==>
              r[0].name == current.value.name && r[0].a2 == current.value.a2 && r[0].a3 == current.value.a3
    ensures forall u :: u in r ==> u.isCorrect == isCorrect
  {
    if current.Some? then [StatsUpdate(current.value.name, isCorrect, current.value.a2, current.value.a3)] else []
  }

  /** A history record and a statistics update about the same guess. */
  predicate SameGuess(g: GuessRecord, u: StatsUpdate)
  {
    g.isCorrect == u.isCorrect && g.a2 == u.a2 && g.a3 == u.a3
  }

  /** Where the map flies to for a country: its coordinates. */
  function Destination(c: CountryData): (d: LatLng)
    ensures GetCountryCoordinates(Some(c)) == Some(d)
  {
    (c.latitude, c.longitude)
  }

  class CountryQuiz {
    /** The country store: the current answer and the random selection. */
    const store: CountryGuess
    /** `answerInputRef.current`: the input field's value, or None while the field is not mounted. */
    var input: Option<string>
    /** The tries tally. */
    var tally: nat
    /** The guess history of the guess record context. */
    var guessHistory: seq<GuessRecord>
    /** The calls made to `updateCountryStats`, in order. */
    var statsUpdates: seq<StatsUpdate>
    /** The errors passed to `setError`, in order. */
    var errors: seq<QuizError>
    /** The destinations passed to the viewport's `flyTo`, in order. */
    var flights: seq<LatLng>
    /** How many times the input field was asked to take focus. */
    var focusRequests: nat

    /**
     * The store is valid, and the history and the statistics updates are written in step:
     * the i-th record and the i-th update describe the same guess.
     */
    ghost predicate Valid()
      reads this, store
    {
      && store.Valid()
      && |guessHistory| == |statsUpdates|
      && forall i :: 0 <= i < |guessHistory| ==> SameGuess(guessHistory[i], statsUpdates[i])
    }

    /**
     * What `showNextCountry` leaves behind: either a newly committed country, flown to and
     * with the input focused, or one more selection error and the store untouched.
     */
    ghost predicate SelectedAfter(oldAnswer: Option<CountryData>, oldFeature: Option<Feature>,
                                  oldErrors: seq<QuizError>, oldFlights: seq<LatLng>, oldFocus: nat)
      reads this, store
    {
      || (&& store.countryAnswer.Some?
          && store.Committed(store.countryAnswer.value)
          && errors == oldErrors
          && flights == oldFlights + [Destination(store.countryAnswer.value)]
          && focusRequests == oldFocus + 1)
      || (&& store.countryAnswer == oldAnswer
          && store.countryFeature == oldFeature
          && |errors| == |oldErrors| + 1
          && errors[..|oldErrors|] == oldErrors
          && errors[|oldErrors|].SelectionFailed?
          && flights == oldFlights
          && focusRequests == oldFocus)
    }

    constructor (store: CountryGuess, input: Option<string>)
      requires store.Valid()
      ensures Valid()
      ensures this.store == store && this.input == input
      ensures tally == 0 && guessHistory == [] && statsUpdates == []
      ensures errors == [] && flights == [] && focusRequests == 0
    {
      this.store := store;
      this.input := input;
      tally := 0;
      guessHistory := [];
      statsUpdates := [];
      errors := [];
      flights := [];
      focusRequests := 0;
    }

    /** `setAnswerInputField`: writes the field's value when the field is mounted. */
    method SetAnswerInputField(value: string)
      modifies this
      ensures input == if old(input).Some? then Some(value) else None
      ensures tally == old(tally) && guessHistory == old(guessHistory) && statsUpdates == old(statsUpdates)
      ensures errors == old(errors) && flights == old(flights) && focusRequests == old(focusRequests)
    {
      if input.Some? {
        input := Some(value);
      }
    }

    /** `giveHint`: the full canonical name goes into the field when a country is current; always focus. */
    method GiveHint()
      requires Valid()
      modifies this
      ensures Valid()
      ensures store.countryAnswer.Some? && old(input).Some? ==> input == Some(store.countryAnswer.value.name)
      ensures store.countryAnswer.None? || old(input).None? ==> input == old(input)
      ensures focusRequests == old(focusRequests) + 1
      ensures tally == old(tally) && guessHistory == old(guessHistory) && statsUpdates == old(statsUpdates)
      ensures errors == old(errors) && flights == old(flights)
    {
      if store.countryAnswer.Some? {
        var hint := store.countryAnswer.value.name;
        SetAnswerInputField(hint);
      }
      focusRequests := focusRequests + 1;
    }

    /** `resetUI`: the tally back to zero and the field emptied. */
    method ResetUI()
      requires Valid()
      modifies this
      ensures Valid()
      ensures tally == 0
      ensures input == if old(input).Some? then Some("") else None
      ensures guessHistory == old(guessHistory) && statsUpdates == old(statsUpdates)
      ensures errors == old(errors) && flights == old(flights) && focusRequests == old(focusRequests)
    {
      tally := 0;
      SetAnswerInputField("");
    }

    /** `focusUI`: fly to the country and focus the field. */
    method FocusUI(next: CountryData)
      modifies this
      ensures flights == old(flights) + [Destination(next)]
      ensures focusRequests == old(focusRequests) + 1
      ensures input == old(input) && tally == old(tally)
      ensures guessHistory == old(guessHistory) && statsUpdates == old(statsUpdates) && errors == old(errors)
    {
      var destination := GetCountryCoordinates(Some(next));
      flights := flights + [destination.value];
      focusRequests := focusRequests + 1;
    }

    /** `showNextCountry`: select a random country; a selection error goes to `setError`, never further. */
    method ShowNextCountry()
      requires Valid()
      modifies this, store
      ensures Valid()
      ensures SelectedAfter(old(store.countryAnswer), old(store.countryFeature), old(errors), old(flights), old(focusRequests))
      ensures store.catalog == [] ==> store.countryAnswer == old(store.countryAnswer)
      ensures input == old(input) && tally == old(tally)
      ensures guessHistory == old(guessHistory) && statsUpdates == old(statsUpdates)
    {
      var r := store.GetRandomCountryData();
      match r
      case Success(nextCountry) =>
        FocusUI(nextCountry);
      case Failure(e) =>
        errors := errors + [SelectionFailed(e)];
    }

    /**
     * `submitAnswer`. The current country and the last guess are those of the render the call
     * belongs to, read before anything changes.
     */
    method SubmitAnswer() returns (result: bool)
      requires Valid()
      modifies this, store
      ensures Valid()
      // No input field: report it and change nothing else.
      ensures old(input).None? ==>
                && !result
                && errors == old(errors) + [InputFieldNotFound]
                && input == old(input) && tally == old(tally) && flights == old(flights)
                && focusRequests == old(focusRequests)
                && guessHistory == old(guessHistory) && statsUpdates == old(statsUpdates)
                && unchanged(store)
      // Empty or repeated guess: nothing changes at all.
      ensures old(input).Some? && !IsValidNewGuess(old(input).value, LastGuess(old(guessHistory))) ==>
                !result && unchanged(this) && unchanged(store)
      // A valid new guess: the result is the answer check against the country current at submission.
      ensures old(input).Some? && IsValidNewGuess(old(input).value, LastGuess(old(guessHistory))) ==>
                && result == CheckAnswer(old(store.countryAnswer), old(input).value)
                && guessHistory == old(guessHistory) + RecordsFor(old(store.countryAnswer), old(input).value, result)
                && statsUpdates == old(statsUpdates) + StatsFor(old(store.countryAnswer), result)
      // Correct: tally reset, field emptied, next country selected.
      ensures old(input).Some? && IsValidNewGuess(old(input).value, LastGuess(old(guessHistory))) && result ==>
                && tally == 0 && input == Some("")
                && SelectedAfter(old(store.countryAnswer), old(store.countryFeature), old(errors), old(flights), old(focusRequests))
      // Incorrect: one more try, and the current country stays.
      ensures old(input).Some? && IsValidNewGuess(old(input).value, LastGuess(old(guessHistory))) && !result ==>
                && tally == old(tally) + 1 && input == old(input)
                && errors == old(errors) && flights == old(flights) && focusRequests == old(focusRequests)
                && unchanged(store)
    {
      if input.None? {
        errors := errors + [InputFieldNotFound];
        return false;
      }
      var current := store.countryAnswer;
      var lastGuess := LastGuess(guessHistory);
      var userGuess := input.value;
      var isCorrect := CheckAnswer(current, userGuess);
      var isValidNewGuess := IsValidNewGuess(userGuess, lastGuess);

      if !isValidNewGuess {
        return false;
      }

      if isCorrect {
        ResetUI();
        ShowNextCountry();
      } else {
        tally := tally + 1;
      }

      RecordGuess(current, userGuess, isCorrect);
      return isCorrect;
    }

    /** `pushGuessToHistory` and `updateCountryStats`, both about the given country, when there is one. */
    method RecordGuess(current: Option<CountryData>, userGuess: string, isCorrect: bool)
      requires Valid()
      modifies this
      ensures Valid()
      ensures guessHistory == old(guessHistory) + RecordsFor(current, userGuess, isCorrect)
      ensures statsUpdates == old(statsUpdates) + StatsFor(current, isCorrect)
      ensures input == old(input) && tally == old(tally)
      ensures errors == old(errors) && flights == old(flights) && focusRequests == old(focusRequests)
    {
      if current.Some? {
        var c := current.value;
        guessHistory := guessHistory + [GuessRecord(userGuess, isCorrect, c.a2, c.a3)];
        statsUpdates := statsUpdates + [StatsUpdate(c.name, isCorrect, c.a2, c.a3)];
      }
    }

    /** `handleMapClick`: fly back to the current country, or select one when there is none. */
    method HandleMapClick()
      requires Valid()
      modifies this, store
      ensures Valid()
      ensures old(store.countryAnswer).Some? ==>
                && flights == old(flights) + [Destination(old(store.countryAnswer).value)]
                && focusRequests == old(focusRequests) + 1
                && errors == old(errors) && unchanged(store)
      ensures old(store.countryAnswer).None? ==>
                SelectedAfter(old(store.countryAnswer), old(store.countryFeature), old(errors), old(flights), old(focusRequests))
      ensures input == old(input) && tally == old(tally)
      ensures guessHistory == old(guessHistory) && statsUpdates == old(statsUpdates)
    {
      if store.countryAnswer.Some? {
        FocusUI(store.countryAnswer.value);
      } else {
        ShowNextCountry();
      }
    }

    /** `skipCountry`: reset the tally and the field, then select the next country; nothing is recorded. */
    method SkipCountry()
      requires Valid()
      modifies this, store
      ensures Valid()
      ensures tally == 0
      ensures input == if old(input).Some? then Some("") else None
      ensures guessHistory == old(guessHistory) && statsUpdates == old(statsUpdates)
      ensures SelectedAfter(old(store.countryAnswer), old(store.countryFeature), old(errors), old(flights), old(focusRequests))
    {
      ResetUI();
      ShowNextCountry();
    }

    /**
     * Submitting twice without touching the field: the second submission is never a correct
     * new guess, and at most one record is added in all.
     */
    method SubmitTwice() returns (first: bool, second: bool)
      requires Valid()
      modifies this, store
      ensures Valid()
      ensures !second
      ensures |guessHistory| <= |old(guessHistory)| + 1
    {
      first := SubmitAnswer();
      second := SubmitAnswer();
    }
  }
}

=== FILE: map_activity.dfy ===
/**
 * The activity page: the activity mode (none, review or quiz), the buttons that start an
 * activity and the "Finish" control that ends it, and which map layers, panels and overlays
 * are on for a given mode and number of countries left by the region filters.
 */
module MapActivity {
  import opened Wrappers
  import opened Countries
  import MapSvg

  datatype ActivityMode = Review | Quiz

  /** What the page puts on screen and which handlers it mounts. */
  datatype Layout = Layout(
    /** Zoom and "Finish" controls on the map. */
    mapControls: bool,
    /** The quiz's map-click handler. */
    quizMapClick: bool,
    /** The marker on the stored country, and its name popup. */
    marker: bool,
    reviewPopup: bool,
    /** The code the map highlights. */
    highlightAlpha3: Option<string>,
    /** The `onClick` handler passed to the map (the review's click handler, in every mode). */
    svgOnClick: bool,
    /** The `enableOnClick` and `disableColorFilter` properties passed to the map. */
    svgClickEnabled: bool,
    disableColorFilter: bool,
    quizPanelShown: bool,
    reviewPanelShown: bool,
    reviewPanelDisabled: bool,
    /** The region selection overlay: mounted at all, and shown. */
    regionsOverlayMounted: bool,
    regionsOverlayShown: bool,
    headerShown: bool,
    headerText: string,
    instructionsShown: bool,
    /** The side column, whether its country list is abridged, and the guess history panel. */
    sidePanels: bool,
    countriesListAbridged: bool,
    guessHistoryPanel: bool)

  const QuizHeader: string := "Guess the country!"
  const ReviewHeader: string := "Reviewing countries"

  /**
   * The page for a mode, the number of filtered countries, the stored country and whether it
   * has coordinates.
   */
  function PageLayout(mode: Option<ActivityMode>, filteredCount: nat, stored: Option<CountryData>, hasCoordinates: bool)
    : (r: Layout)
    ensures r.mapControls <==> mode.Some?
    ensures r.quizMapClick <==> mode == Some(Quiz)
    ensures r.marker <==> mode.Some? && hasCoordinates
    ensures r.reviewPopup <==> mode == Some(Review) && hasCoordinates
    ensures r.highlightAlpha3.None? <==> stored.None?
    ensures stored.Some? ==> r.highlightAlpha3 == Some(stored.value.a3)
    ensures r.svgOnClick
    ensures r.svgClickEnabled <==> mode == Some(Review)
    ensures r.disableColorFilter <==> mode.None?
    ensures r.quizPanelShown <==> mode == Some(Quiz) && filteredCount > 0
    ensures r.reviewPanelShown <==> mode == Some(Review)
    ensures r.reviewPanelDisabled <==> filteredCount == 0
    ensures r.regionsOverlayMounted <==> mode.Some?
    ensures r.regionsOverlayShown <==> filteredCount == 0
    ensures r.headerShown <==> mode.Some?
    ensures r.headerText == (if mode == Some(Quiz) then QuizHeader else if mode == Some(Review) then ReviewHeader else "")
    ensures r.instructionsShown <==> mode.None?
    ensures r.sidePanels <==> mode.Some?
    ensures r.countriesListAbridged <==> mode == Some(Quiz)
    ensures r.guessHistoryPanel <==> mode == Some(Quiz)
  {
    Layout(
      mapControls := mode.Some?,
      quizMapClick := mode == Some(Quiz),
      marker := mode.Some? && hasCoordinates,
      reviewPopup := mode == Some(Review) && hasCoordinates,
      highlightAlpha3 := if stored.Some? then Some(stored.value.a3) else None,
      svgOnClick := true,
      svgClickEnabled := mode == Some(Review),
      disableColorFilter := mode.None?,
      quizPanelShown := mode == Some(Quiz) && filteredCount > 0,
      reviewPanelShown := mode == Some(Review),
      reviewPanelDisabled := filteredCount == 0,
      regionsOverlayMounted := mode.Some?,
      regionsOverlayShown := filteredCount == 0,
      headerShown := mode.Some?,
      headerText := if mode == Some(Quiz) then QuizHeader else if mode == Some(Review) then ReviewHeader else "",
      instructionsShown := mode.None?,
      sidePanels := mode.Some?,
      countriesListAbridged := mode == Some(Quiz),
      guessHistoryPanel := mode == Some(Quiz))
  }

  /** The region overlay is visible: mounted and shown. */
  predicate RegionsOverlayVisible(l: Layout)
  {
    l.regionsOverlayMounted && l.regionsOverlayShown
  }

  /**
   * In a quiz exactly one of the quiz panel and the region overlay is visible: with countries
   * left the player answers, without any they pick regions.
   */
  lemma QuizShowsPanelOrRegions(filteredCount: nat, stored: Option<CountryData>, hasCoordinates: bool)
    ensures var l := PageLayout(Some(Quiz), filteredCount, stored, hasCoordinates);
            l.quizPanelShown != RegionsOverlayVisible(l)
  {
  }

  /** In review the panel is shown, and it is usable exactly when the region overlay is not visible. */
  lemma ReviewPanelOrRegions(filteredCount: nat, stored: Option<CountryData>, hasCoordinates: bool)
    ensures var l := PageLayout(Some(Review), filteredCount, stored, hasCoordinates);
            l.reviewPanelShown && (l.reviewPanelDisabled <==> RegionsOverlayVisible(l))
  {
  }

  /**
   * With no activity the page is the plain map under the instructions: no activity control,
   * panel, overlay or handler, and the colour filter off, whatever the filters leave.
   */
  lemma IdlePageIsPlain(filteredCount: nat, stored: Option<CountryData>, hasCoordinates: bool)
    ensures var l := PageLayout(None, filteredCount, stored, hasCoordinates);
            l.instructionsShown && l.disableColorFilter && !l.headerShown && !l.sidePanels
            && !l.mapControls && !l.marker && !l.quizPanelShown && !l.reviewPanelShown
            && !RegionsOverlayVisible(l) && !l.quizMapClick && !l.svgClickEnabled
  {
  }

  /**
   * The quiz's map-click handler and the map's `enableOnClick` property are never set together,
   * and the quiz never offers the review popup.
   */
  lemma QuizHandlerExcludesReviewProps(mode: Option<ActivityMode>, filteredCount: nat, stored: Option<CountryData>, hasCoordinates: bool)
    ensures var l := PageLayout(mode, filteredCount, stored, hasCoordinates);
            !(l.quizMapClick && l.svgClickEnabled) && !(l.quizMapClick && l.reviewPopup)
  {
  }

  /**
   * `enableOnClick` does not gate the map: the review's click handler is always passed as
   * `onClick`, so in a quiz a click on a path with a code reaches both the quiz's map-click
   * handler and the review's click handler.
   */
  lemma QuizPathClicksReachReviewHandler(filteredCount: nat, stored: Option<CountryData>, hasCoordinates: bool, a3: string)
    requires a3 != ""
    ensures var l := PageLayout(Some(Quiz), filteredCount, stored, hasCoordinates);
            l.quizMapClick && !l.svgClickEnabled && MapSvg.ForwardedClick(l.svgOnClick, Some(a3)) == Some(a3)
  {
  }

  /** The page's own state: the mode and the resets it asked of the store and the viewport. */
  class ActivityPage {
    var activityMode: Option<ActivityMode>
    /** Calls made to `resetStore` and `resetView`. */
    var storeResets: nat
    var viewResets: nat

    constructor ()
      ensures activityMode == None && storeResets == 0 && viewResets == 0
    {
      activityMode := None;
      storeResets := 0;
      viewResets := 0;
    }

    /** The "Review" and "Quiz" buttons: the mode becomes the chosen activity. */
    method ChooseActivity(mode: ActivityMode)
      modifies this
      ensures activityMode == Some(mode)
      ensures storeResets == old(storeResets) && viewResets == old(viewResets)
    {
      activityMode := Some(mode);
    }

    /** `finishActivity`: back to no activity, with the store and the viewport reset once each. */
    method FinishActivity()
      modifies this
      ensures activityMode == None
      ensures storeResets == old(storeResets) + 1 && viewResets == old(viewResets) + 1
    {
      activityMode := None;
      storeResets := storeResets + 1;
      viewResets := viewResets + 1;
    }

    /**
     * Starting a quiz and finishing it leaves the page as it was before the quiz, except that
     * the store and the viewport were reset once.
     */
    method QuizRoundTrip(filteredCount: nat, stored: Option<CountryData>, hasCoordinates: bool) returns (during: Layout, after: Layout)
      requires activityMode == None
      modifies this
      ensures during == PageLayout(Some(Quiz), filteredCount, stored, hasCoordinates)
      ensures after == PageLayout(old(activityMode), filteredCount, stored, hasCoordinates)
      ensures during.quizMapClick && !after.quizMapClick && after.instructionsShown
      ensures storeResets == old(storeResets) + 1 && viewResets == old(viewResets) + 1
    {
      ChooseActivity(Quiz);
      during := PageLayout(activityMode, filteredCount, stored, hasCoordinates);
      FinishActivity();
      after := PageLayout(activityMode, filteredCount, stored, hasCoordinates);
    }
  }
}

=== FILE: map_svg.dfy ===
/**
 * The map overlay: the SVG document's attributes and country paths read with regular
 * expressions, the split of the paths into the highlighted one and the rest, how each path
 * is styled and the order they are drawn in, and which clicks reach the caller.
 */
module MapSvg {
  import opened Wrappers
  import opened UnicodeTables

  // ---------------------------------------------------------------------------------------
  // The regular expressions. Every one used here has the shape
  //   lits[0] (.+?) lits[1] (.+?) ... lits[n]
  // with literal pieces and lazy groups; `.` matches any code unit except a line terminator.
  // ---------------------------------------------------------------------------------------

  /** The literal pieces of a pattern; the groups sit between consecutive pieces. */
  type Pattern = seq<string>

  /** `lit` occurs in `s` starting at `at`. */
  predicate StartsWith(s: string, at: nat, lit: string)
  {
    at + |lit| <= |s| && s[at..at + |lit|] == lit
  }

  predicate NoLineTerminator(t: string)
  {
    forall i :: 0 <= i < |t| ==> !IsLineTerminator(t[i])
  }

  /** What a group `(.+?)` can capture: at least one character, none of them a line terminator. */
  predicate Capturable(g: string)
  {
    g != [] && NoLineTerminator(g)
  }

  /** The text a pattern matches when its groups capture `groups`. */
  function Interleave(lits: Pattern, groups: seq<string>): string
    requires |lits| == |groups| + 1
  {
    if groups == [] then lits[0] else lits[0] + groups[0] + Interleave(lits[1..], groups[1..])
  }

  /** One match of a pattern: where it starts and ends and what its groups captured. */
  datatype Match = Match(start: nat, end: nat, groups: seq<string>)

  /**
   * The backtracking match of `lits` anchored at `at`: the captures and the end position,
   * with each lazy group as short as the rest of the pattern allows.
   */
  function MatchAt(s: string, at: nat, lits: Pattern): (r: Option<(seq<string>, nat)>)
    requires |lits| >= 1
    decreases |lits|, |s| + 1
    ensures r.Some? ==> at + |lits[0]| <= r.value.1 <= |s| && |r.value.0| == |lits| - 1
  {
    if !StartsWith(s, at, lits[0]) then None
    else if |lits| == 1 then Some(([], at + |lits[0]|))
    else LazyGroup(s, at + |lits[0]|, 1, lits[1..])
  }

  /**
   * A lazy group starting at `start` tried with `k` characters, then `k + 1`, and so on, until
   * the rest of the pattern matches after it; the returned captures start with the group's.
   */
  function LazyGroup(s: string, start: nat, k: nat, rest: Pattern): (r: Option<(seq<string>, nat)>)
    requires |rest| >= 1 && k >= 1
    decreases |rest| + 1, |s| + 1 - start - k
    ensures r.Some? ==> start + k <= r.value.1 <= |s| && |r.value.0| == |rest|
  {
    if start + k > |s| || IsLineTerminator(s[start + k - 1]) then None
    else
      match MatchAt(s, start + k, rest)
      case Some((groups, end)) => Some(([s[start..start + k]] + groups, end))
      case None => LazyGroup(s, start, k + 1, rest)
  }

  /** A match covers exactly the pattern's text with its captures, and every capture is capturable. */
  lemma {:induction false} MatchAtSound(s: string, at: nat, lits: Pattern)
    requires |lits| >= 1
    ensures var r := MatchAt(s, at, lits);
            r.Some? ==> s[at..r.value.1] == Interleave(lits, r.value.0)
                        && forall i :: 0 <= i < |r.value.0| ==> Capturable(r.value.0[i])
    decreases |lits|, |s| + 1
  {
    if StartsWith(s, at, lits[0]) && |lits| > 1 {
      var start := at + |lits[0]|;
      LazyGroupSound(s, start, 1, lits[1..]);
      var r := LazyGroup(s, start, 1, lits[1..]);
      if r.Some? {
        assert s[at..r.value.1] == s[at..start] + s[start..r.value.1];
      }
    }
  }

  /** What a lazy group returns: its capture of at least `k` characters, then the rest's captures. */
  lemma {:induction false} LazyGroupSound(s: string, start: nat, k: nat, rest: Pattern)
    requires |rest| >= 1 && k >= 1
    requires forall i :: start <= i < start + k - 1 && i < |s| ==> !IsLineTerminator(s[i])
    ensures var r := LazyGroup(s, start, k, rest);
            r.Some? ==> s[start..r.value.1] == r.value.0[0] + Interleave(rest, r.value.0[1..])
                        && |r.value.0[0]| >= k
                        && forall i :: 0 <= i < |r.value.0| ==> Capturable(r.value.0[i])
    decreases |rest| + 1, |s| + 1 - start - k
  {
    if start + k <= |s| && !IsLineTerminator(s[start + k - 1]) {
      var m := MatchAt(s, start + k, rest);
      if m.Some? {
        MatchAtSound(s, start + k, rest);
        var end := m.value.1;
        assert s[start..end] == s[start..start + k] + s[start + k..end];
        LazyGroupPrefix(s, start, k);
        var r := LazyGroup(s, start, k, rest);
        assert r.value.0 == [s[start..start + k]] + m.value.0;
        assert r.value.0[1..] == m.value.0;
      } else {
        LazyGroupSound(s, start, k + 1, rest);
      }
    }
  }

  /** A group's characters that each passed the line-terminator test make a terminator-free capture. */
  lemma LazyGroupPrefix(s: string, start: nat, k: nat)
    requires start + k <= |s|
    requires forall i :: start <= i < start + k ==> !IsLineTerminator(s[i])
    ensures NoLineTerminator(s[start..start + k])
  {
    var t := s[start..start + k];
    forall i | 0 <= i < k
      ensures !IsLineTerminator(t[i])
    {
      assert t[i] == s[start + i];
    }
  }

  /**
   * The leftmost match starting at `from` or later (what `exec` finds with `lastIndex == from`).
   * By `MatchAtComplete`, a position where `MatchAt` fails is one where the regular expression
   * has no match at all, so "none" here means no regular-expression match.
   */
  function FirstMatch(s: string, lits: Pattern, from: nat): (r: Option<Match>)
    requires |lits| >= 1
    decreases |s| + 1 - from
    ensures r.Some? ==> from <= r.value.start && MatchAt(s, r.value.start, lits) == Some((r.value.groups, r.value.end))
    ensures r.Some? ==> forall p :: from <= p < r.value.start ==> MatchAt(s, p, lits).None?
    ensures r.None? ==> forall p :: from <= p <= |s| ==> MatchAt(s, p, lits).None?
  {
    if from > |s| then None
    else
      match MatchAt(s, from, lits)
      case Some((groups, end)) => Some(Match(from, end, groups))
      case None => FirstMatch(s, lits, from + 1)
  }

  /** `matchAll`: the leftmost match, then the leftmost one after it, and so on, in document order. */
  function AllMatches(s: string, lits: Pattern, from: nat): (r: seq<Match>)
    requires |lits| >= 1 && lits[0] != []
    decreases |s| + 1 - from
    ensures forall i :: 0 <= i < |r| ==> from <= r[i].start && MatchAt(s, r[i].start, lits) == Some((r[i].groups, r[i].end))
    ensures forall i :: 0 <= i < |r| - 1 ==> r[i].end <= r[i + 1].start
    ensures forall i :: 0 <= i < |r| ==> r[i].start < r[i].end
  {
    match FirstMatch(s, lits, from)
    case None => []
    case Some(m) =>
      [m] + AllMatches(s, lits, m.end)
  }

  /** No position in `[lo, hi)` starts a match of `lits`. */
  predicate NoMatchIn(s: string, lits: Pattern, lo: nat, hi: nat)
    requires |lits| >= 1
  {
    forall p :: lo <= p < hi ==> MatchAt(s, p, lits).None?
  }

  /** The gaps of a match list with one more match in front: the new gap, then the old gaps. */
  lemma GapsOfCons(s: string, lits: Pattern, m: Match, tail: seq<Match>)
    requires |lits| >= 1
    requires tail != [] ==> NoMatchIn(s, lits, m.end, tail[0].start)
    requires forall i :: 0 <= i < |tail| - 1 ==> NoMatchIn(s, lits, tail[i].end, tail[i + 1].start)
    ensures var r := [m] + tail;
            forall i :: 0 <= i < |r| - 1 ==> NoMatchIn(s, lits, r[i].end, r[i + 1].start)
  {
    var r := [m] + tail;
    forall i | 0 <= i < |r| - 1
      ensures NoMatchIn(s, lits, r[i].end, r[i + 1].start)
    {
      assert r[i + 1] == tail[i];
      if i > 0 {
        assert r[i] == tail[i - 1];
      }
    }
  }

  /**
   * `matchAll` skips no match: no position before the first match, between one match's end and
   * the next match's start, or after the last match starts a match (by `MatchAtComplete`, no
   * regular-expression match either).
   */
  lemma {:induction false} AllMatchesComplete(s: string, lits: Pattern, from: nat)
    requires |lits| >= 1 && lits[0] != []
    decreases |s| + 1 - from
    ensures var r := AllMatches(s, lits, from);
            && (r == [] ==> NoMatchIn(s, lits, from, |s| + 1))
            && (r != [] ==> NoMatchIn(s, lits, from, r[0].start))
            && (forall i :: 0 <= i < |r| - 1 ==> NoMatchIn(s, lits, r[i].end, r[i + 1].start))
            && (r != [] ==> NoMatchIn(s, lits, r[|r| - 1].end, |s| + 1))
  {
    var r := AllMatches(s, lits, from);
    match FirstMatch(s, lits, from)
    case None =>
    case Some(m) =>
      var tail := AllMatches(s, lits, m.end);
      assert r == [m] + tail;
      assert r[0] == m && m.start < m.end;
      AllMatchesComplete(s, lits, m.end);
      GapsOfCons(s, lits, m, tail);
      if tail != [] {
        assert r[|r| - 1] == tail[|tail| - 1];
      }
  }

  // ---------------------------------------------------------------------------------------
  // Printing then parsing: text built from a pattern with quote-free captures parses back.
  // ---------------------------------------------------------------------------------------

  /** A value that can sit between double quotes and be captured whole by `(.+?)"`. */
  predicate QuoteFree(g: string)
  {
    Capturable(g) && forall i :: 0 <= i < |g| ==> g[i] != '"'
  }

  /** Every literal piece after the first starts with a double quote, as the map's patterns do. */
  predicate QuoteDelimited(lits: Pattern)
  {
    forall i :: 1 <= i < |lits| ==> lits[i] != [] && lits[i][0] == '"'
  }

  /** Where text occurs in `s`, each slice of the text is the matching slice of `s`. */
  lemma SliceOfStartsWith(s: string, at: nat, text: string, lo: nat, hi: nat)
    requires StartsWith(s, at, text) && lo <= hi <= |text|
    ensures s[at + lo..at + hi] == text[lo..hi]
  {
    var whole := s[at..at + |text|];
    assert whole == text;
    forall i | 0 <= i < hi - lo
      ensures s[at + lo..at + hi][i] == text[lo..hi][i]
    {
      assert whole[lo + i] == s[at + lo + i];
    }
  }

  /** A pattern without its first piece is still delimited by quotes. */
  lemma QuoteDelimitedTail(lits: Pattern)
    requires |lits| >= 1 && QuoteDelimited(lits)
    ensures QuoteDelimited(lits[1..])
  {
    forall i | 1 <= i < |lits[1..]|
      ensures lits[1..][i] != [] && lits[1..][i][0] == '"'
    {
      assert lits[1..][i] == lits[i + 1];
    }
  }

  /** Where `a + b + c` occurs, `a`, `b` and `c` occur one after another. */
  lemma PartsOccur(s: string, at: nat, a: string, b: string, c: string)
    requires StartsWith(s, at, a + b + c)
    ensures StartsWith(s, at, a)
    ensures StartsWith(s, at + |a|, b)
    ensures StartsWith(s, at + |a| + |b|, c)
  {
    var text := a + b + c;
    assert text[0..|a|] == a;
    assert text[|a|..|a| + |b|] == b;
    assert text[|a| + |b|..|text|] == c;
    SliceOfStartsWith(s, at, text, 0, |a|);
    SliceOfStartsWith(s, at, text, |a|, |a| + |b|);
    SliceOfStartsWith(s, at, text, |a| + |b|, |text|);
  }

  /** After its first piece, a pattern of several pieces continues with its first lazy group. */
  lemma MatchAtStep(s: string, at: nat, lits: Pattern)
    requires |lits| > 1 && StartsWith(s, at, lits[0])
    ensures MatchAt(s, at, lits) == LazyGroup(s, at + |lits[0]|, 1, lits[1..])
  {
  }

  /** A pattern of one piece matches that piece alone. */
  lemma MatchAtLast(s: string, at: nat, lits: Pattern)
    requires |lits| == 1 && StartsWith(s, at, lits[0])
    ensures MatchAt(s, at, lits) == Some(([], at + |lits[0]|))
  {
  }

  /** Parsing `Interleave(lits, groups)` at its own position captures exactly `groups`. */
  lemma {:induction false} MatchInterleave(s: string, at: nat, lits: Pattern, groups: seq<string>)
    requires |lits| == |groups| + 1 && QuoteDelimited(lits)
    requires forall i :: 0 <= i < |groups| ==> QuoteFree(groups[i])
    requires StartsWith(s, at, Interleave(lits, groups))
    ensures MatchAt(s, at, lits) == Some((groups, at + |Interleave(lits, groups)|))
    decreases |groups|
  {
    if groups == [] {
      assert Interleave(lits, groups) == lits[0];
      MatchAtLast(s, at, lits);
    } else {
      var g, later := groups[0], groups[1..];
      var tail := Interleave(lits[1..], later);
      assert Interleave(lits, groups) == lits[0] + g + tail;
      PartsOccur(s, at, lits[0], g, tail);
      QuoteDelimitedTail(lits);
      forall i | 0 <= i < |later|
        ensures QuoteFree(later[i])
      {
        assert later[i] == groups[i + 1];
      }
      var start := at + |lits[0]| + |g|;
      MatchInterleave(s, start, lits[1..], later);
      assert MatchAt(s, start, lits[1..]) == Some((later, start + |tail|));
      assert QuoteFree(g);
      MatchAtCons(s, at, lits, g, later, start + |tail|);
      assert [g] + later == groups;
    }
  }

  /** A quote-free value after the first piece, then a match of the rest: one more capture in front. */
  lemma MatchAtCons(s: string, at: nat, lits: Pattern, g: string, later: seq<string>, end: nat)
    requires |lits| >= 2 && QuoteDelimited(lits) && QuoteFree(g)
    requires StartsWith(s, at, lits[0])
    requires StartsWith(s, at + |lits[0]|, g)
    requires MatchAt(s, at + |lits[0]| + |g|, lits[1..]) == Some((later, end))
    ensures MatchAt(s, at, lits) == Some(([g] + later, end))
  {
    var start := at + |lits[0]|;
    assert lits[1..][0] == lits[1];
    LazyGroupFinds(s, start, 1, lits[1..], g, later, end);
    MatchAtStep(s, at, lits);
  }

  /** The lazy group stops exactly at the end of a quote-free value followed by the rest of the pattern. */
  lemma {:induction false} LazyGroupFinds(s: string, start: nat, k: nat, rest: Pattern, g: string, groups: seq<string>, end: nat)
    requires |rest| >= 1 && rest[0] != [] && rest[0][0] == '"'
    requires QuoteFree(g) && 1 <= k <= |g|
    requires start + |g| <= |s| && s[start..start + |g|] == g
    requires MatchAt(s, start + |g|, rest) == Some((groups, end))
    ensures LazyGroup(s, start, k, rest) == Some(([g] + groups, end))
    decreases |g| - k
  {
    assert s[start + k - 1] == g[k - 1];
    if k < |g| {
      assert s[start + k] == g[k];
      assert s[start + k] != rest[0][0];
      assert !StartsWith(s, start + k, rest[0]);
      LazyGroupFinds(s, start, k + 1, rest, g, groups, end);
    } else {
      assert s[start..start + k] == g;
    }
  }

  /**
   * The matcher misses no match: wherever the pattern's text with some capturable captures
   * occurs, the backtracking match anchored there succeeds (possibly with shorter captures).
   */
  lemma {:induction false} MatchAtComplete(s: string, at: nat, lits: Pattern, groups: seq<string>)
    requires |lits| == |groups| + 1
    requires forall i :: 0 <= i < |groups| ==> Capturable(groups[i])
    requires StartsWith(s, at, Interleave(lits, groups))
    ensures MatchAt(s, at, lits).Some?
    decreases |lits|, 1, 0
  {
    if groups == [] {
      assert Interleave(lits, groups) == lits[0];
    } else {
      var g, later := groups[0], groups[1..];
      assert Interleave(lits, groups) == lits[0] + g + Interleave(lits[1..], later);
      PartsOccur(s, at, lits[0], g, Interleave(lits[1..], later));
      assert forall i :: 0 <= i < |later| ==> Capturable(later[i]) by {
        forall i | 0 <= i < |later|
          ensures Capturable(later[i])
        {
          assert later[i] == groups[i + 1];
        }
      }
      assert Capturable(groups[0]);
      LazyGroupComplete(s, at + |lits[0]|, 1, lits[1..], g, later);
    }
  }

  /**
   * A lazy group whose text `g` is followed by the rest of the pattern's text succeeds when tried
   * from any length `k` up to `|g|`: at the latest it stops at `g` itself.
   */
  lemma {:induction false} LazyGroupComplete(s: string, start: nat, k: nat, rest: Pattern, g: string, later: seq<string>)
    requires |rest| == |later| + 1 && 1 <= k <= |g|
    requires Capturable(g) && forall i :: 0 <= i < |later| ==> Capturable(later[i])
    requires StartsWith(s, start, g) && StartsWith(s, start + |g|, Interleave(rest, later))
    ensures LazyGroup(s, start, k, rest).Some?
    decreases |rest| + 1, 0, |g| - k
  {
    assert s[start..start + |g|][k - 1] == s[start + k - 1];
    assert !IsLineTerminator(s[start + k - 1]);
    if k == |g| {
      MatchAtComplete(s, start + k, rest, later);
    } else if MatchAt(s, start + k, rest).None? {
      LazyGroupComplete(s, start, k + 1, rest, g, later);
    }
  }

  /**
   * `exec` from `from` finds a match whenever the pattern's text with capturable captures occurs
   * at or after `from`, and the match it finds starts no later than that occurrence.
   */
  lemma FirstMatchFindsOccurrence(s: string, lits: Pattern, from: nat, at: nat, groups: seq<string>)
    requires |lits| == |groups| + 1
    requires forall i :: 0 <= i < |groups| ==> Capturable(groups[i])
    requires from <= at && StartsWith(s, at, Interleave(lits, groups))
    ensures FirstMatch(s, lits, from).Some? && FirstMatch(s, lits, from).value.start <= at
  {
    MatchAtComplete(s, at, lits, groups);
  }

  // ---------------------------------------------------------------------------------------
  // The document's attributes: each the first match of its parser, or a fixed default.
  // ---------------------------------------------------------------------------------------

  /** The parser `name="(.+?)"`. */
  function AttributePattern(name: string): (r: Pattern)
    ensures |r| == 2 && r[0] != [] && QuoteDelimited(r)
  {
    [name + "=\"", "\""]
  }

  /** `parser.exec(svg)?.[1] || default`: the first match's capture, or the default when there is none. */
  function AttributeOr(svg: string, name: string, default: string): (r: string)
    ensures r == default || Capturable(r)
  {
    match FirstMatch(svg, AttributePattern(name), 0)
    case None => default
    case Some(m) =>
      MatchAtSound(svg, m.start, AttributePattern(name));
      m.groups[0]
  }

  /**
   * The attribute is the value of the leftmost `name="..."` in the document, where no character
   * after the value's first is a double quote; with no such text anywhere the default is used.
   */
  lemma AttributeIsLeftmost(svg: string, name: string, default: string) returns (at: Option<nat>)
    ensures at.None? ==> AttributeOr(svg, name, default) == default
    ensures at.None? ==> forall p :: 0 <= p <= |svg| ==> MatchAt(svg, p, AttributePattern(name)).None?
    ensures at.Some? ==> StartsWith(svg, at.value, name + "=\"" + AttributeOr(svg, name, default) + "\"")
    ensures at.Some? ==> Capturable(AttributeOr(svg, name, default))
    ensures at.Some? ==> forall i :: 1 <= i < |AttributeOr(svg, name, default)| ==> AttributeOr(svg, name, default)[i] != '"'
    ensures at.Some? ==> forall p :: 0 <= p < at.value ==> MatchAt(svg, p, AttributePattern(name)).None?
  {
    var lits := AttributePattern(name);
    match FirstMatch(svg, lits, 0)
    case None =>
      at := None;
    case Some(m) =>
      at := Some(m.start);
      var g := m.groups[0];
      assert AttributeOr(svg, name, default) == g;
      MatchedTextOccurs(svg, m.start, lits, m.groups, m.end);
      assert Interleave(lits, m.groups) == name + "=\"" + g + "\"";
      MatchAtStep(svg, m.start, lits);
      assert lits[1..] == ["\""];
      var lazy := LazyGroup(svg, m.start + |lits[0]|, 1, ["\""]);
      assert lazy == Some((m.groups, m.end));
      LazyCaptureStopsAtQuote(svg, m.start + |lits[0]|, 1);
      assert forall i :: 1 <= i < |lazy.value.0[0]| ==> lazy.value.0[0][i] != '"';
  }

  /** The text a match covers is the pattern's text with the match's captures. */
  lemma MatchedTextOccurs(s: string, at: nat, lits: Pattern, groups: seq<string>, end: nat)
    requires |lits| >= 1 && MatchAt(s, at, lits) == Some((groups, end))
    ensures StartsWith(s, at, lits[0])
    ensures StartsWith(s, at, Interleave(lits, groups)) && end == at + |Interleave(lits, groups)|
    ensures forall i :: 0 <= i < |groups| ==> Capturable(groups[i])
  {
    MatchAtSound(s, at, lits);
  }

  /** Every character a lazy group followed by `"` adds beyond its first `k` is not a double quote. */
  lemma {:induction false} LazyCaptureStopsAtQuote(s: string, start: nat, k: nat)
    requires k >= 1
    requires forall i :: start <= i < start + k - 1 && i < |s| ==> !IsLineTerminator(s[i])
    ensures var r := LazyGroup(s, start, k, ["\""]);
            r.Some? ==> forall i :: k <= i < |r.value.0[0]| ==> r.value.0[0][i] != '"'
    decreases |s| + 1 - start - k
  {
    var r := LazyGroup(s, start, k, ["\""]);
    if start + k <= |s| && !IsLineTerminator(s[start + k - 1]) && MatchAt(s, start + k, ["\""]).None? && r.Some? {
      assert r == LazyGroup(s, start, k + 1, ["\""]);
      LazyCaptureStopsAtQuote(s, start, k + 1);
      LazyGroupSound(s, start, k + 1, ["\""]);
      var g, end := r.value.0[0], r.value.1;
      CaptureCharacter(s, start, end, g, Interleave(["\""], r.value.0[1..]), k);
      QuoteAt(s, start + k);
    }
  }

  /** A character of a prefix of `s[start..end]` is the matching character of `s`. */
  lemma CaptureCharacter(s: string, start: nat, end: nat, g: string, tail: string, k: nat)
    requires start <= end <= |s| && s[start..end] == g + tail && k < |g|
    ensures g[k] == s[start + k]
  {
    assert (g + tail)[k] == g[k];
  }

  /** Where no quote starts, the character is not a quote. */
  lemma QuoteAt(s: string, at: nat)
    requires at < |s| && !StartsWith(s, at, "\"")
    ensures s[at] != '"'
  {
    assert s[at..at + 1] == [s[at]];
  }

  /**
   * An empty value is not read as empty: the group takes the closing quote as its first
   * character and runs on to the next quote.
   */
  lemma EmptyValueRunsOn()
    ensures AttributeOr("w=\"\" h=\"5\"", "w", "250") == "\" h="
  {
    var s := "w=\"\" h=\"5\"";
    var lits := AttributePattern("w");
    assert StartsWith(s, 0, lits[0]);
    assert MatchAt(s, 7, ["\""]) == Some(([], 8));
    assert s[4..5][0] == ' ' && s[5..6][0] == 'h' && s[6..7][0] == '=';
    assert !StartsWith(s, 4, "\"") && !StartsWith(s, 5, "\"") && !StartsWith(s, 6, "\"");
    assert s[3..7] == "\" h=";
    assert !IsLineTerminator(s[6]);
    assert [s[3..7]] + [] == ["\" h="];
    assert LazyGroup(s, 3, 4, ["\""]) == Some((["\" h="], 8));
    assert LazyGroup(s, 3, 3, ["\""]) == LazyGroup(s, 3, 4, ["\""]);
    assert LazyGroup(s, 3, 2, ["\""]) == LazyGroup(s, 3, 3, ["\""]);
    assert LazyGroup(s, 3, 1, ["\""]) == LazyGroup(s, 3, 2, ["\""]);
    assert MatchAt(s, 0, lits) == Some((["\" h="], 8));
  }

  /**
   * The width parser has no left boundary: it matches inside `stroke-width="..."`, so a
   * `stroke-width` that comes before the first `width` supplies the width.
   */
  lemma WidthParserMatchesStrokeWidth()
    ensures MatchAt("stroke-width=\"2\"", 7, AttributePattern("width")) == Some((["2"], 16))
  {
    var s := "stroke-width=\"2\"";
    var lits := AttributePattern("width");
    assert s[7..14] == lits[0];
    assert s[15..16] == "\"" && !IsLineTerminator(s[14]);
    assert MatchAt(s, 15, ["\""]) == Some(([], 16));
    assert s[14..15] == "2";
    assert [s[14..15]] + [] == ["2"];
    assert LazyGroup(s, 14, 1, ["\""]) == Some((["2"], 16));
  }

  /** The document attributes handed to the overlay. */
  datatype SvgAttributes = SvgAttributes(
    width: string, height: string, viewBox: string, stroke: string,
    fill: string, strokeLinecap: string, strokeLinejoin: string, strokeWidth: string)

  /** The overlay's attributes read from the document, each with its own default. */
  function Attributes(svg: string): (r: SvgAttributes)
    ensures r.width != [] && r.height != [] && r.viewBox != [] && r.stroke != []
    ensures r.fill != [] && r.strokeLinecap != [] && r.strokeLinejoin != [] && r.strokeWidth != []
  {
    SvgAttributes(
      AttributeOr(svg, "width", "250"),
      AttributeOr(svg, "height", "250"),
      AttributeOr(svg, "viewBox", "0 0 250 250"),
      AttributeOr(svg, "stroke", "#fff"),
      AttributeOr(svg, "fill", "#7c7c7c"),
      AttributeOr(svg, "stroke-linecap", "round"),
      AttributeOr(svg, "stroke-linejoin", "round"),
      AttributeOr(svg, "stroke-width", "0.01"))
  }

  // ---------------------------------------------------------------------------------------
  // The country paths.
  // ---------------------------------------------------------------------------------------

  /** One country's outline: its path data, its code and its name. */
  datatype SvgPath = SvgPath(path: string, a3: string, admin: string)

  /** The parser `<path d="(.+?)" A3="(.+?)" ADMIN="(.+?)"/>`. */
  const PathPattern: Pattern := ["<path d=\"", "\" A3=\"", "\" ADMIN=\"", "\"/>"]

  /** The element the path parser reads one country from. */
  function PathElement(p: SvgPath): string
  {
    Interleave(PathPattern, [p.path, p.a3, p.admin])
  }

  /** `svgPaths`: one entry per match of the path parser, in document order. */
  function SvgPaths(svg: string, from: nat): (r: seq<SvgPath>)
    ensures |r| == |AllMatches(svg, PathPattern, from)|
  {
    var ms := AllMatches(svg, PathPattern, from);
    PathMatchesCapturable(svg, from, ms);
    PathsOf(ms)
  }

  /** Every path read from a document has a non-empty path, code and name without line terminators. */
  lemma SvgPathsAreCapturable(svg: string, from: nat)
    ensures var r := SvgPaths(svg, from);
            forall i :: 0 <= i < |r| ==> Capturable(r[i].path) && Capturable(r[i].a3) && Capturable(r[i].admin)
  {
    var ms := AllMatches(svg, PathPattern, from);
    PathMatchesCapturable(svg, from, ms);
    var r := SvgPaths(svg, from);
    forall i | 0 <= i < |r|
      ensures Capturable(r[i].path) && Capturable(r[i].a3) && Capturable(r[i].admin)
    {
      assert r[i] == SvgPath(ms[i].groups[0], ms[i].groups[1], ms[i].groups[2]);
    }
  }

  /** Every match of the path parser has three captures, each capturable. */
  lemma PathMatchesCapturable(svg: string, from: nat, ms: seq<Match>)
    requires ms == AllMatches(svg, PathPattern, from)
    ensures forall i :: 0 <= i < |ms| ==> |ms[i].groups| == 3 && Capturable(ms[i].groups[0])
                                          && Capturable(ms[i].groups[1]) && Capturable(ms[i].groups[2])
  {
    forall i | 0 <= i < |ms|
      ensures |ms[i].groups| == 3 && Capturable(ms[i].groups[0])
              && Capturable(ms[i].groups[1]) && Capturable(ms[i].groups[2])
    {
      MatchAtSound(svg, ms[i].start, PathPattern);
    }
  }

  /** A document made of path elements, one after another. */
  function Document(paths: seq<SvgPath>): string
  {
    if paths == [] then "" else PathElement(paths[0]) + Document(paths[1..])
  }

  /** A path whose fields can be written between double quotes. */
  predicate Writable(p: SvgPath)
  {
    QuoteFree(p.path) && QuoteFree(p.a3) && QuoteFree(p.admin)
  }

  /** The captures a path element yields. */
  function Fields(p: SvgPath): seq<string>
  {
    [p.path, p.a3, p.admin]
  }

  /** The paths read from a run of matches of the path parser. */
  function PathsOf(ms: seq<Match>): (r: seq<SvgPath>)
    requires forall i :: 0 <= i < |ms| ==> |ms[i].groups| == 3
    ensures |r| == |ms|
    ensures forall i :: 0 <= i < |ms| ==> r[i] == SvgPath(ms[i].groups[0], ms[i].groups[1], ms[i].groups[2])
  {
    if ms == [] then [] else [SvgPath(ms[0].groups[0], ms[0].groups[1], ms[0].groups[2])] + PathsOf(ms[1..])
  }

  /** A document that continues with a path element has its next match right there. */
  lemma ElementMatches(svg: string, from: nat, p: SvgPath, rest: string)
    requires Writable(p)
    requires from <= |svg| && svg[from..] == PathElement(p) + rest
    ensures FirstMatch(svg, PathPattern, from) == Some(Match(from, from + |PathElement(p)|, Fields(p)))
    ensures svg[from + |PathElement(p)|..] == rest
  {
    var e := PathElement(p);
    var end := from + |e|;
    assert StartsWith(svg, from, e) by {
      assert svg[from..end] == svg[from..][..|e|];
    }
    assert QuoteDelimited(PathPattern);
    MatchInterleave(svg, from, PathPattern, Fields(p));
    assert svg[end..] == svg[from..][|e|..];
  }

  /** Nothing matches at the end of a document. */
  lemma NoMatchAtEnd(svg: string, from: nat)
    requires from == |svg|
    ensures AllMatches(svg, PathPattern, from) == []
  {
    assert !StartsWith(svg, from, PathPattern[0]);
    assert FirstMatch(svg, PathPattern, from + 1).None?;
    assert FirstMatch(svg, PathPattern, from).None?;
  }

  /** When the next match reads path `p`, the paths read are `p` and then those after the match. */
  lemma SvgPathsCons(svg: string, from: nat, p: SvgPath, end: nat)
    requires FirstMatch(svg, PathPattern, from) == Some(Match(from, end, Fields(p)))
    ensures SvgPaths(svg, from) == [p] + SvgPaths(svg, end)
  {
    var ms := AllMatches(svg, PathPattern, from);
    var tail := AllMatches(svg, PathPattern, end);
    assert ms == [Match(from, end, Fields(p))] + tail;
    PathMatchesCapturable(svg, from, ms);
    PathMatchesCapturable(svg, end, tail);
    assert ms[1..] == tail;
    assert PathsOf(ms) == [p] + PathsOf(tail);
  }

  /** Reading the paths of a document written from paths gives back those paths, in order. */
  lemma {:induction false} SvgPathsOfDocument(svg: string, from: nat, paths: seq<SvgPath>)
    requires forall i :: 0 <= i < |paths| ==> Writable(paths[i])
    requires from <= |svg| && svg[from..] == Document(paths)
    ensures SvgPaths(svg, from) == paths
    decreases |paths|
  {
    if paths == [] {
      NoMatchAtEnd(svg, from);
    } else {
      var p := paths[0];
      var rest := paths[1..];
      var end := from + |PathElement(p)|;
      assert Document(paths) == PathElement(p) + Document(rest);
      ElementMatches(svg, from, p, Document(rest));
      SvgPathsCons(svg, from, p, end);
      assert forall i :: 0 <= i < |rest| ==> Writable(rest[i]) by {
        forall i | 0 <= i < |rest|
          ensures Writable(rest[i])
        {
          assert rest[i] == paths[i + 1];
        }
      }
      SvgPathsOfDocument(svg, end, rest);
    }
  }

  // ---------------------------------------------------------------------------------------
  // The highlighted path and the others.
  // ---------------------------------------------------------------------------------------

  /** `findIndex`: the first path whose code is `highlight`, if any. */
  function FindIndex(paths: seq<SvgPath>, highlight: Option<string>): (r: Option<nat>)
    ensures r.None? <==> forall i :: 0 <= i < |paths| ==> Some(paths[i].a3) != highlight
    ensures r.Some? ==> r.value < |paths| && Some(paths[r.value].a3) == highlight
    ensures r.Some? ==> forall i :: 0 <= i < r.value ==> Some(paths[i].a3) != highlight
  {
    if paths == [] then None
    else if Some(paths[0].a3) == highlight then Some(0)
    else
      match FindIndex(paths[1..], highlight)
      case None => None
      case Some(i) => Some(i + 1)
  }

  /** `filter((_, i) => i !== index)`, entry by entry, for entries numbered from `position`. */
  function FilterOutIndex(paths: seq<SvgPath>, index: nat, position: nat): (r: seq<SvgPath>)
    ensures position <= index < position + |paths| ==> |r| == |paths| - 1
    ensures !(position <= index < position + |paths|) ==> r == paths
    decreases |paths|
  {
    if paths == [] then []
    else (if position != index then [paths[0]] else []) + FilterOutIndex(paths[1..], index, position + 1)
  }

  /** Filtering out one index keeps every other entry, in order. */
  lemma {:induction false} FilterOutIndexRemovesOne(paths: seq<SvgPath>, index: nat, position: nat)
    requires position <= index < position + |paths|
    ensures FilterOutIndex(paths, index, position) == paths[..index - position] + paths[index - position + 1..]
    decreases |paths|
  {
    var j := index - position;
    var tail := FilterOutIndex(paths[1..], index, position + 1);
    if j == 0 {
      assert FilterOutIndex(paths, index, position) == [] + tail;
      FilterOutIndexKeepsAll(paths[1..], index, position + 1);
      assert paths[..0] + paths[1..] == paths[1..];
    } else {
      assert FilterOutIndex(paths, index, position) == [paths[0]] + tail;
      FilterOutIndexRemovesOne(paths[1..], index, position + 1);
      assert tail == paths[1..][..j - 1] + paths[1..][j..];
      assert paths[1..][..j - 1] == paths[1..j];
      assert paths[1..][j..] == paths[j + 1..];
      assert [paths[0]] + paths[1..j] == paths[..j];
    }
  }

  /** Entries numbered past the filtered index are all kept. */
  lemma {:induction false} FilterOutIndexKeepsAll(paths: seq<SvgPath>, index: nat, position: nat)
    requires index < position
    ensures FilterOutIndex(paths, index, position) == paths
    decreases |paths|
  {
    if paths != [] {
      FilterOutIndexKeepsAll(paths[1..], index, position + 1);
    }
  }

  /** The split `useMemo` computes: the highlighted path's data, if any, and the other paths. */
  function Partition(paths: seq<SvgPath>, highlight: Option<string>): (r: (Option<string>, seq<SvgPath>))
    ensures FindIndex(paths, highlight).None? ==> r == (None, paths)
    ensures FindIndex(paths, highlight).Some? ==>
              var i := FindIndex(paths, highlight).value;
              r == (Some(paths[i].path), paths[..i] + paths[i + 1..])
  {
    match FindIndex(paths, highlight)
    case None => (None, paths)
    case Some(i) =>
      FilterOutIndexRemovesOne(paths, i, 0);
      (Some(paths[i].path), FilterOutIndex(paths, i, 0))
  }

  /** Splitting loses and invents nothing: the others are the paths less one copy of the highlighted one. */
  lemma PartitionIsPermutation(paths: seq<SvgPath>, highlight: Option<string>)
    ensures var r := Partition(paths, highlight);
            r.0.None? ==> multiset(r.1) == multiset(paths)
    ensures var r := Partition(paths, highlight);
            r.0.Some? ==> multiset(r.1) + multiset{paths[FindIndex(paths, highlight).value]} == multiset(paths)
  {
    if FindIndex(paths, highlight).Some? {
      var i := FindIndex(paths, highlight).value;
      assert paths == paths[..i] + [paths[i]] + paths[i + 1..];
      assert multiset(paths) == multiset(paths[..i]) + multiset{paths[i]} + multiset(paths[i + 1..]);
    }
  }

  /**
   * Only the first path with the highlighted code leaves the list: the paths before it keep
   * their places, and every later one, even with the same code, moves up by one.
   */
  lemma PartitionRemovesFirstOnly(paths: seq<SvgPath>, highlight: Option<string>)
    requires FindIndex(paths, highlight).Some?
    ensures var i, others := FindIndex(paths, highlight).value, Partition(paths, highlight).1;
            |others| == |paths| - 1
            && (forall j :: 0 <= j < i ==> others[j] == paths[j] && Some(others[j].a3) != highlight)
            && (forall j :: i < j < |paths| ==> others[j - 1] == paths[j])
  {
    var i, others := FindIndex(paths, highlight).value, Partition(paths, highlight).1;
    var before, after := paths[..i], paths[i + 1..];
    assert others == before + after;
    forall j | 0 <= j < i
      ensures others[j] == paths[j]
    {
      assert others[j] == before[j];
    }
    forall j | i < j < |paths|
      ensures others[j - 1] == paths[j]
    {
      assert others[j - 1] == after[j - 1 - i];
    }
  }

  // ---------------------------------------------------------------------------------------
  // Drawing: styles, order and clicks.
  // ---------------------------------------------------------------------------------------

  /** The style of a path: stroke opacity, fill colour and stroke colour. */
  datatype PathStyle = PathStyle(strokeOpacity: real, fill: string, stroke: string)

  const EmphasisedStyle: PathStyle := PathStyle(0.5, "#94a3b8", "unset")
  const MutedStyle: PathStyle := PathStyle(0.15, "#64748b", "unset")
  /** The highlighted path is drawn with no stroke opacity of its own. */
  const HighlightStyle: PathStyle := PathStyle(1.0, "#fcd34d", "#fcd34d")

  /** `colorFilter`: a path is emphasised when filtering is off or its country is in the filters. */
  function OtherPathStyle(disableColorFilter: bool, inFilters: bool): (r: PathStyle)
    ensures r == EmphasisedStyle <==> disableColorFilter || inFilters
    ensures r == MutedStyle <==> !disableColorFilter && !inFilters
  {
    if disableColorFilter || inFilters then EmphasisedStyle else MutedStyle
  }

  /** One drawn `<path>`: its `data-a3`, its path data and its style. */
  datatype DrawnPath = DrawnPath(dataA3: string, d: string, style: PathStyle)

  /** The overlay's children: every other path in order, then the highlighted path on top. */
  function DrawnPaths(paths: seq<SvgPath>, highlight: Option<string>, disableColorFilter: bool, filtered: set<string>)
    : (r: seq<DrawnPath>)
    ensures |r| <= |paths|
    ensures forall i :: 0 <= i < |r| - 1 ==> r[i].style != HighlightStyle
    ensures FindIndex(paths, highlight).None? ==> forall i :: 0 <= i < |r| ==> r[i].style != HighlightStyle
  {
    var (h, others) := Partition(paths, highlight);
    seq(|others|, i requires 0 <= i < |others| =>
          DrawnPath(others[i].a3, others[i].path, OtherPathStyle(disableColorFilter, others[i].a3 in filtered)))
    + (if h.Some? && h.value != [] then [DrawnPath(highlight.value, h.value, HighlightStyle)] else [])
  }

  /**
   * Every country of a parsed map is drawn exactly once; the highlighted one, when present, is
   * drawn last in the highlight style, and every other path is styled by the colour filter.
   */
  lemma DrawsEveryPathOnce(paths: seq<SvgPath>, highlight: Option<string>, disableColorFilter: bool, filtered: set<string>)
    requires forall i :: 0 <= i < |paths| ==> paths[i].path != []
    ensures var r := DrawnPaths(paths, highlight, disableColorFilter, filtered);
            |r| == |paths| &&
            (FindIndex(paths, highlight).Some? ==>
               r[|r| - 1] == DrawnPath(highlight.value, paths[FindIndex(paths, highlight).value].path, HighlightStyle)) &&
            (forall i :: 0 <= i < |r| && r[i].style != HighlightStyle ==>
               r[i].style == OtherPathStyle(disableColorFilter, r[i].dataA3 in filtered))
  {
  }

  /**
   * `onClickHandler`: the clicked element's `data-a3` reaches the caller only when a handler is
   * given and the attribute is present and not empty.
   */
  function ForwardedClick(onClickGiven: bool, dataA3: Option<string>): (r: Option<string>)
    ensures r.Some? <==> onClickGiven && dataA3.Some? && dataA3.value != ""
    ensures r.Some? ==> r == dataA3
  {
    if onClickGiven && dataA3.Some? && dataA3.value != "" then dataA3 else None
  }

  /** With a handler given, clicking any drawn path of a parsed map forwards that path's code. */
  lemma ClickOnDrawnPathForwards(paths: seq<SvgPath>, highlight: Option<string>, disableColorFilter: bool, filtered: set<string>, i: nat)
    requires forall j :: 0 <= j < |paths| ==> Capturable(paths[j].path) && Capturable(paths[j].a3)
    requires i < |DrawnPaths(paths, highlight, disableColorFilter, filtered)|
    ensures var drawn := DrawnPaths(paths, highlight, disableColorFilter, filtered)[i];
            ForwardedClick(true, Some(drawn.dataA3)) == Some(drawn.dataA3)
  {
    var (h, others) := Partition(paths, highlight);
    var r := DrawnPaths(paths, highlight, disableColorFilter, filtered);
    if i < |others| {
      PartitionIsPermutation(paths, highlight);
      assert others[i] in multiset(others);
    } else {
      var k := FindIndex(paths, highlight).value;
      assert highlight.value == paths[k].a3;
    }
  }
}

=== FILE: regions_toggle.dfy ===
/**
 * The region selection shown when no country is left to review: a record from continent to
 * "selected", kept as its entries in insertion order (the order `Object.entries` walks), with
 * "toggle all", "toggle one" and "submit every entry to the country filters, then reset".
 */
module RegionsToggle {
  import opened Wrappers

  /** One entry of the selection record. */
  datatype Toggle = Toggle(continent: string, checked: bool)

  /** A call to `toggleContinentFilter(continent, toggle)`. */
  datatype FilterCall = FilterCall(continent: string, toggle: bool)

  /** The keys of a record, in entry order. */
  function Keys(toggles: seq<Toggle>): (r: seq<string>)
    ensures |r| == |toggles|
    ensures forall i :: 0 <= i < |toggles| ==> r[i] == toggles[i].continent
  {
    if toggles == [] then [] else [toggles[0].continent] + Keys(toggles[1..])
  }

  /** A record never holds the same key twice. */
  ghost predicate UniqueKeys(toggles: seq<Toggle>)
  {
    forall i, j :: 0 <= i < j < |toggles| ==> toggles[i].continent != toggles[j].continent
  }

  /** The value stored under a key, if the key is present. */
  function Lookup(toggles: seq<Toggle>, continent: string): (r: Option<bool>)
    ensures r.None? <==> continent !in Keys(toggles)
    ensures r.Some? ==> Toggle(continent, r.value) in toggles
  {
    if toggles == [] then None
    else if toggles[0].continent == continent then Some(toggles[0].checked)
    else Lookup(toggles[1..], continent)
  }

  /** Every key of the record mapped to the same value, keys kept in order. */
  function SetAll(toggles: seq<Toggle>, checked: bool): (r: seq<Toggle>)
    ensures Keys(r) == Keys(toggles)
    ensures forall i :: 0 <= i < |r| ==> r[i].checked == checked
  {
    if toggles == [] then [] else [Toggle(toggles[0].continent, checked)] + SetAll(toggles[1..], checked)
  }

  /** `createInitialToggles`: the filters' keys, each mapped to false. */
  function CreateInitialToggles(continentFilters: seq<Toggle>): (r: seq<Toggle>)
    ensures Keys(r) == Keys(continentFilters)
    ensures forall i :: 0 <= i < |r| ==> !r[i].checked
    ensures UniqueKeys(continentFilters) ==> UniqueKeys(r)
  {
    SetAll(continentFilters, false)
  }

  /** `allContinentsSelected`: every value is true (so also for an empty record). */
  function AllSelected(toggles: seq<Toggle>): (r: bool)
    ensures r <==> forall i :: 0 <= i < |toggles| ==> toggles[i].checked
  {
    toggles == [] || (toggles[0].checked && AllSelected(toggles[1..]))
  }

  /** `noContinentsSelected`: no value is true (so also for an empty record). */
  function NoneSelected(toggles: seq<Toggle>): (r: bool)
    ensures r <==> forall i :: 0 <= i < |toggles| ==> !toggles[i].checked
  {
    toggles == [] || (!toggles[0].checked && NoneSelected(toggles[1..]))
  }

  /** On an empty record both predicates hold; on any other record at most one does. */
  lemma {:induction false} AllAndNoneSelected(toggles: seq<Toggle>)
    ensures AllSelected(toggles) && NoneSelected(toggles) <==> toggles == []
  {
    if toggles != [] {
      assert !(toggles[0].checked && !toggles[0].checked);
    }
  }

  /** Toggling all to the same value twice is toggling it once. */
  lemma {:induction false} SetAllIdempotent(toggles: seq<Toggle>, checked: bool)
    ensures SetAll(SetAll(toggles, checked), checked) == SetAll(toggles, checked)
  {
    if toggles != [] {
      SetAllIdempotent(toggles[1..], checked);
      assert SetAll(toggles, checked)[1..] == SetAll(toggles[1..], checked);
    }
  }

  /** After toggling all on, every continent is selected; after toggling all off, none is. */
  lemma SetAllSelects(toggles: seq<Toggle>)
    ensures AllSelected(SetAll(toggles, true))
    ensures NoneSelected(SetAll(toggles, false))
  {
  }

  /** `{...current, [continent]: checked}`: replaces the value in place, or appends the new key. */
  function SetContinent(toggles: seq<Toggle>, continent: string, checked: bool): (r: seq<Toggle>)
    ensures continent in Keys(toggles) ==> |r| == |toggles|
    ensures continent !in Keys(toggles) ==> |r| == |toggles| + 1
  {
    if toggles == [] then [Toggle(continent, checked)]
    else if toggles[0].continent == continent then [Toggle(continent, checked)] + toggles[1..]
    else [toggles[0]] + SetContinent(toggles[1..], continent, checked)
  }

  /** After setting a continent, that continent reads the new value and every other key reads as before. */
  lemma {:induction false} SetContinentLookup(toggles: seq<Toggle>, continent: string, checked: bool, other: string)
    ensures Lookup(SetContinent(toggles, continent, checked), continent) == Some(checked)
    ensures other != continent ==> Lookup(SetContinent(toggles, continent, checked), other) == Lookup(toggles, other)
  {
    if toggles != [] && toggles[0].continent != continent {
      SetContinentLookup(toggles[1..], continent, checked, other);
      assert SetContinent(toggles, continent, checked)[1..] == SetContinent(toggles[1..], continent, checked);
    }
  }

  /** Setting a present continent keeps the keys; setting a new one appends it. */
  lemma {:induction false} SetContinentKeys(toggles: seq<Toggle>, continent: string, checked: bool)
    ensures continent in Keys(toggles) ==> Keys(SetContinent(toggles, continent, checked)) == Keys(toggles)
    ensures continent !in Keys(toggles) ==> Keys(SetContinent(toggles, continent, checked)) == Keys(toggles) + [continent]
  {
    var r := SetContinent(toggles, continent, checked);
    if toggles == [] {
    } else if toggles[0].continent == continent {
      assert Keys(r)[0] == Keys(toggles)[0];
    } else {
      SetContinentKeys(toggles[1..], continent, checked);
      assert r[1..] == SetContinent(toggles[1..], continent, checked);
      assert Keys(toggles)[1..] == Keys(toggles[1..]);
      assert continent in Keys(toggles) <==> continent in Keys(toggles[1..]);
      assert Keys(r)[1..] == Keys(r[1..]);
    }
  }

  /** Setting one continent keeps the record free of duplicate keys. */
  lemma {:induction false} SetContinentKeepsUniqueKeys(toggles: seq<Toggle>, continent: string, checked: bool)
    requires UniqueKeys(toggles)
    ensures UniqueKeys(SetContinent(toggles, continent, checked))
  {
    var r := SetContinent(toggles, continent, checked);
    var keys, newKeys := Keys(toggles), Keys(r);
    SetContinentKeys(toggles, continent, checked);
    forall i, j | 0 <= i < j < |r|
      ensures r[i].continent != r[j].continent
    {
      assert newKeys[i] == r[i].continent && newKeys[j] == r[j].continent;
      if continent in keys {
        assert keys[i] == toggles[i].continent && keys[j] == toggles[j].continent;
      } else if j < |toggles| {
        assert keys[i] == toggles[i].continent && keys[j] == toggles[j].continent;
      } else {
        assert newKeys[j] == continent && newKeys[i] == keys[i];
      }
    }
  }

  /** The filter calls `handleSubmit` makes for a record: one per entry, in entry order. */
  function FilterCalls(toggles: seq<Toggle>): (r: seq<FilterCall>)
    ensures |r| == |toggles|
    ensures forall i :: 0 <= i < |toggles| ==> r[i] == FilterCall(toggles[i].continent, toggles[i].checked)
  {
    if toggles == [] then [] else [FilterCall(toggles[0].continent, toggles[0].checked)] + FilterCalls(toggles[1..])
  }

  /** The selection list: the initial toggles, the current selection and the calls made on the filters. */
  class RegionsToggleList {
    /** `initialToggles`, memoised from the continent filters of this render. */
    const initialToggles: seq<Toggle>
    var selectedContinents: seq<Toggle>
    /** The calls made to `toggleContinentFilter`, in order. */
    var filterCalls: seq<FilterCall>

    ghost predicate Valid()
      reads this
    {
      UniqueKeys(initialToggles) && UniqueKeys(selectedContinents) && NoneSelected(initialToggles)
    }

    constructor (continentFilters: seq<Toggle>)
      requires UniqueKeys(continentFilters)
      ensures Valid()
      ensures initialToggles == CreateInitialToggles(continentFilters)
      ensures selectedContinents == initialToggles && filterCalls == []
    {
      SubmitDisablesStart(continentFilters);
      initialToggles := CreateInitialToggles(continentFilters);
      selectedContinents := CreateInitialToggles(continentFilters);
      filterCalls := [];
    }

    /** The "All" toggle's state. */
    function AllContinentsSelected(): (r: bool)
      reads this
      ensures r <==> forall i :: 0 <= i < |selectedContinents| ==> selectedContinents[i].checked
    {
      AllSelected(selectedContinents)
    }

    /** The Start button is disabled exactly when no continent is selected. */
    function StartDisabled(): (r: bool)
      reads this
      ensures r <==> forall i :: 0 <= i < |selectedContinents| ==> !selectedContinents[i].checked
    {
      NoneSelected(selectedContinents)
    }

    /** `handleToggleAll`: every continent set to `checked`. */
    method HandleToggleAll(checked: bool)
      requires Valid()
      modifies this
      ensures Valid()
      ensures selectedContinents == SetAll(old(selectedContinents), checked)
      ensures filterCalls == old(filterCalls)
      ensures checked ==> AllContinentsSelected()
      ensures !checked ==> StartDisabled()
    {
      selectedContinents := SetAll(selectedContinents, checked);
      SetAllSelects(old(selectedContinents));
      assert UniqueKeys(selectedContinents) by {
        assert Keys(selectedContinents) == Keys(old(selectedContinents));
        forall i, j | 0 <= i < j < |selectedContinents|
          ensures selectedContinents[i].continent != selectedContinents[j].continent
        {
          assert Keys(selectedContinents)[i] == old(selectedContinents)[i].continent;
          assert Keys(selectedContinents)[j] == old(selectedContinents)[j].continent;
        }
      }
    }

    /** The per-continent `onChange`: only that continent's value changes. */
    method OnChange(continent: string, checked: bool)
      requires Valid()
      modifies this
      ensures Valid()
      ensures selectedContinents == SetContinent(old(selectedContinents), continent, checked)
      ensures filterCalls == old(filterCalls)
    {
      SetContinentKeepsUniqueKeys(selectedContinents, continent, checked);
      selectedContinents := SetContinent(selectedContinents, continent, checked);
    }

    /** `handleSubmit`: every entry pushed to the filters in order, then the selection reset. */
    method HandleSubmit()
      requires Valid()
      modifies this
      ensures Valid()
      ensures filterCalls == old(filterCalls) + FilterCalls(old(selectedContinents))
      ensures selectedContinents == initialToggles
      ensures StartDisabled()
    {
      var entries := selectedContinents;
      var i := 0;
      while i < |entries|
        invariant 0 <= i <= |entries|
        invariant filterCalls == old(filterCalls) + FilterCalls(entries[..i])
      {
        assert entries[..i + 1] == entries[..i] + [entries[i]];
        FilterCallsAppend(entries[..i], entries[i]);
        filterCalls := filterCalls + [FilterCall(entries[i].continent, entries[i].checked)];
        i := i + 1;
      }
      assert entries[..i] == entries;
      selectedContinents := initialToggles;
    }
  }

  /** The calls for a record with one more entry are the calls for the record, then one more. */
  lemma {:induction false} FilterCallsAppend(toggles: seq<Toggle>, last: Toggle)
    ensures FilterCalls(toggles + [last]) == FilterCalls(toggles) + [FilterCall(last.continent, last.checked)]
  {
    var r := FilterCalls(toggles + [last]);
    assert |r| == |toggles| + 1;
    assert forall i :: 0 <= i < |toggles| ==> (toggles + [last])[i] == toggles[i];
  }

  /** After submitting, the Start button is disabled until a continent is chosen again. */
  lemma SubmitDisablesStart(continentFilters: seq<Toggle>)
    ensures NoneSelected(CreateInitialToggles(continentFilters))
  {
  }
}

=== FILE: review.dfy ===
/**
 * The review controller hook: jumping to a clicked country or to the next one, marking the
 * previously current country as visited first, and the visited list shown with one trailing
 * highlight for the current country.
 */
module Review {
  import opened Wrappers
  import opened Countries

  const VisitedStyle: string := "fill-yellow-300 stroke-yellow-50"
  const HighlightStyle: string := "fill-yellow-500 stroke-yellow-200"

  /** An entry of the visited-countries list. */
  datatype VisitedCountry = VisitedCountry(a3: string, style: string, highlight: bool)

  /** The calls the hook makes on the visited-countries hook. */
  datatype VisitedCall =
    | PushVisitedCountry(a3: string, style: string)
    | SetVisitedCountry(a3: string)

  /** The selections the hook asks the country store for. */
  datatype StoreCall =
    | SetCountryDataByCode(a3: string)
    | SetCountryDataNext
    | SetCountryDataRandom

  /**
   * The country store as the review hook sees it: a stored country over the filtered catalog,
   * and three setters that either produce a catalog country and store it, or produce nothing
   * and leave the stored country alone. Every call is logged.
   */
  class CountryStore {
    const catalog: seq<CountryData>
    var storedCountry: Option<CountryData>
    var calls: seq<StoreCall>

    ghost predicate Valid()
      reads this
    {
      storedCountry.Some? ==> storedCountry.value in catalog
    }

    constructor (catalog: seq<CountryData>)
      ensures Valid()
      ensures this.catalog == catalog && storedCountry == None && calls == []
    {
      this.catalog := catalog;
      storedCountry := None;
      calls := [];
    }

    /** `setCountryDataByCode`: the first catalog country with that code, if there is one. */
    method SetByCode(a3: string) returns (r: Option<CountryData>)
      requires Valid()
      modifies this
      ensures Valid()
      ensures calls == old(calls) + [SetCountryDataByCode(a3)]
      ensures r.Some? ==> r.value in catalog && r.value.a3 == a3 && storedCountry == r
      ensures r.Some? ==> exists i :: 0 <= i < |catalog| && catalog[i] == r.value &&
                                      forall k :: 0 <= k < i ==> catalog[k].a3 != a3
      ensures r.None? ==> (forall c :: c in catalog ==> c.a3 != a3) && storedCountry == old(storedCountry)
    {
      calls := calls + [SetCountryDataByCode(a3)];
      r := None;
      var i := 0;
      while i < |catalog|
        invariant 0 <= i <= |catalog|
        invariant forall k :: 0 <= k < i ==> catalog[k].a3 != a3
      {
        if catalog[i].a3 == a3 {
          r := Some(catalog[i]);
          assert catalog[i] == r.value;
          storedCountry := r;
          return;
        }
        i := i + 1;
      }
    }

    /**
     * `setCountryDataNext`: the catalog country after the first occurrence of the stored one,
     * wrapping round to the first catalog country; with nothing stored, the first catalog country.
     */
    method SetNext() returns (r: Option<CountryData>)
      requires Valid()
      modifies this
      ensures Valid()
      ensures calls == old(calls) + [SetCountryDataNext]
      ensures r.Some? ==> r.value in catalog && storedCountry == r
      ensures r.None? <==> catalog == []
      ensures r.None? ==> storedCountry == old(storedCountry)
      ensures r.Some? && old(storedCountry).None? ==> r.value == catalog[0]
      ensures r.Some? && old(storedCountry).Some? ==>
                exists i :: 0 <= i < |catalog| && catalog[i] == old(storedCountry).value &&
                            (forall k :: 0 <= k < i ==> catalog[k] != catalog[i]) &&
                            r.value == catalog[if i + 1 < |catalog| then i + 1 else 0]
    {
      calls := calls + [SetCountryDataNext];
      if catalog == [] {
        return None;
      }
      var next := 0;
      if storedCountry.Some? {
        var i := 0;
        while i < |catalog| && catalog[i] != storedCountry.value
          invariant 0 <= i <= |catalog|
          invariant forall k :: 0 <= k < i ==> catalog[k] != storedCountry.value
        {
          i := i + 1;
        }
        assert i < |catalog| && catalog[i] == storedCountry.value;
        next := if i + 1 < |catalog| then i + 1 else 0;
      }
      r := Some(catalog[next]);
      storedCountry := r;
    }

    /** `setCountryDataRandom`: some catalog country. */
    method SetRandom() returns (r: Option<CountryData>)
      requires Valid()
      modifies this
      ensures Valid()
      ensures calls == old(calls) + [SetCountryDataRandom]
      ensures r.Some? ==> r.value in catalog && storedCountry == r
      ensures r.None? <==> catalog == []
      ensures r.None? ==> storedCountry == old(storedCountry)
    {
      calls := calls + [SetCountryDataRandom];
      if catalog == [] {
        return None;
      }
      var i :| 0 <= i < |catalog|;
      r := Some(catalog[i]);
      storedCountry := r;
    }
  }

  /**
   * `visitedCountriesHighlight`: the visited list unchanged when nothing is stored, else the
   * visited list followed by exactly one highlight entry for the stored country.
   */
  function VisitedCountriesHighlight(visitedCountries: seq<VisitedCountry>, stored: Option<CountryData>)
    : (r: seq<VisitedCountry>)
    ensures stored.None? ==> r == visitedCountries
    ensures stored.Some? ==> |r| == |visitedCountries| + 1
    ensures r[..|visitedCountries|] == visitedCountries
    ensures stored.Some? ==> r[|visitedCountries|] == VisitedCountry(stored.value.guA3, HighlightStyle, true)
  {
    if stored.None? then visitedCountries
    else visitedCountries + [VisitedCountry(stored.value.guA3, HighlightStyle, true)]
  }

  /** The number of highlight entries in a list. */
  function Highlights(entries: seq<VisitedCountry>): nat
  {
    if entries == [] then 0
    else Highlights(entries[..|entries| - 1]) + (if entries[|entries| - 1].highlight then 1 else 0)
  }

  /** The displayed list holds exactly one highlight entry more than the visited list when a country is stored. */
  lemma {:induction false} HighlightAddsOne(visitedCountries: seq<VisitedCountry>, stored: Option<CountryData>)
    ensures Highlights(VisitedCountriesHighlight(visitedCountries, stored))
            == Highlights(visitedCountries) + (if stored.Some? then 1 else 0)
  {
    var r := VisitedCountriesHighlight(visitedCountries, stored);
    if stored.Some? {
      assert r[..|r| - 1] == visitedCountries;
    }
  }

  /** The review hook: the store, the review mode flag and what it asks of the visited-countries hook. */
  class CountryReview {
    const store: CountryStore
    /** `isRandomReviewMode` from the map activity context. */
    var isRandomReviewMode: bool
    /** The visited-countries hook's list, as this render sees it. */
    var visitedCountries: seq<VisitedCountry>
    /** The calls made to `pushVisitedCountry` and `setVisitedCountry`, in order. */
    var visitedCalls: seq<VisitedCall>

    ghost predicate Valid()
      reads this, store
    {
      store.Valid()
    }

    constructor (store: CountryStore, isRandomReviewMode: bool, visitedCountries: seq<VisitedCountry>)
      requires store.Valid()
      ensures Valid()
      ensures this.store == store && this.isRandomReviewMode == isRandomReviewMode
      ensures this.visitedCountries == visitedCountries && visitedCalls == []
    {
      this.store := store;
      this.isRandomReviewMode := isRandomReviewMode;
      this.visitedCountries := visitedCountries;
      visitedCalls := [];
    }

    /** The visited mark `pushStoredCountry` issues for a stored country: none when nothing is stored. */
    static function PushFor(stored: Option<CountryData>): (r: seq<VisitedCall>)
      ensures stored.None? <==> r == []
      ensures stored.Some? ==> r == [PushVisitedCountry(stored.value.guA3, VisitedStyle)]
    {
      if stored.None? then [] else [PushVisitedCountry(stored.value.guA3, VisitedStyle)]
    }

    /** `pushStoredCountry`: mark the stored country visited, if there is one. */
    method PushStoredCountry()
      requires Valid()
      modifies this
      ensures Valid()
      ensures visitedCalls == old(visitedCalls) + PushFor(store.storedCountry)
      ensures isRandomReviewMode == old(isRandomReviewMode) && visitedCountries == old(visitedCountries)
    {
      if store.storedCountry.None? {
        return;
      }
      visitedCalls := visitedCalls + [PushVisitedCountry(store.storedCountry.value.guA3, VisitedStyle)];
    }

    /** `clickCountry`: mark the previous country visited, then jump to the clicked one. */
    method ClickCountry(a3: string) returns (r: Option<CountryData>)
      requires Valid()
      modifies this, store
      ensures Valid()
      ensures visitedCalls == old(visitedCalls) + PushFor(old(store.storedCountry)) + [SetVisitedCountry(a3)]
      ensures store.calls == old(store.calls) + [SetCountryDataByCode(a3)]
      ensures r.Some? ==> r.value in store.catalog && r.value.a3 == a3 && store.storedCountry == r
      ensures r.None? ==> (forall c :: c in store.catalog ==> c.a3 != a3)
      ensures r.None? ==> store.storedCountry == old(store.storedCountry)
      ensures isRandomReviewMode == old(isRandomReviewMode) && visitedCountries == old(visitedCountries)
    {
      PushStoredCountry();
      visitedCalls := visitedCalls + [SetVisitedCountry(a3)];
      r := store.SetByCode(a3);
    }

    /** `nextCountry`: mark the current country visited, then select at random or in order. */
    method NextCountry() returns (next: Option<CountryData>)
      requires Valid()
      modifies this, store
      ensures Valid()
      ensures store.calls == old(store.calls) + [if isRandomReviewMode then SetCountryDataRandom else SetCountryDataNext]
      ensures visitedCalls == old(visitedCalls) + PushFor(old(store.storedCountry))
                              + (if next.Some? then [SetVisitedCountry(next.value.guA3)] else [])
      ensures next.Some? ==> next.value in store.catalog && store.storedCountry == next
      ensures next.None? <==> store.catalog == []
      ensures next.None? ==> store.storedCountry == old(store.storedCountry)
      ensures isRandomReviewMode == old(isRandomReviewMode) && visitedCountries == old(visitedCountries)
    {
      PushStoredCountry();
      if isRandomReviewMode {
        next := store.SetRandom();
      } else {
        next := store.SetNext();
      }
      if next.Some? {
        visitedCalls := visitedCalls + [SetVisitedCountry(next.value.guA3)];
      }
    }

    /**
     * Clicking X and then Y, both in the catalog under their own codes: whatever was current
     * before is pushed, then X is marked, pushed as visited once Y is clicked, and Y is current
     * and marked but not pushed.
     */
    method ClickTwice(x: CountryData, y: CountryData) returns (rx: Option<CountryData>, ry: Option<CountryData>)
      requires Valid()
      requires x in store.catalog && y in store.catalog
      requires forall c :: c in store.catalog && c.a3 == x.a3 ==> c == x
      requires forall c :: c in store.catalog && c.a3 == y.a3 ==> c == y
      modifies this, store
      ensures Valid()
      ensures rx == Some(x) && ry == Some(y) && store.storedCountry == Some(y)
      ensures visitedCalls == old(visitedCalls) + PushFor(old(store.storedCountry))
                              + [SetVisitedCountry(x.a3), PushVisitedCountry(x.guA3, VisitedStyle), SetVisitedCountry(y.a3)]
    {
      rx := ClickCountry(x.a3);
      ry := ClickCountry(y.a3);
    }
  }
}

=== FILE: unicode_tables.dfy ===
/**
 * The three pieces of Unicode data the name normaliser relies on: the whitespace set that
 * ECMAScript's `String.prototype.trim` removes, canonical decomposition (Normalization Form D,
 * Unicode Standard Annex #15) and the `Diacritic` binary property (Unicode Standard Annex #44,
 * PropList.txt). The whitespace set is complete; decomposition and the Diacritic property are
 * given for every code point below U+0370 (Basic Latin to Combining Diacritical Marks) and
 * treat every other code point as having no decomposition and no Diacritic property.
 */
module UnicodeTables {

  /** ECMAScript WhiteSpace and LineTerminator code points: what `trim` removes. */
  predicate IsWhitespace(c: char)
  {
    || c == '\U{0009}' || c == '\U{000A}' || c == '\U{000B}' || c == '\U{000C}' || c == '\U{000D}'
    || c == '\U{0020}' || c == '\U{00A0}' || c == '\U{1680}'
    || ('\U{2000}' <= c <= '\U{200A}')
    || c == '\U{2028}' || c == '\U{2029}' || c == '\U{202F}' || c == '\U{205F}' || c == '\U{3000}'
    || c == '\U{FEFF}'
  }

  /** ECMAScript LineTerminator code points: what a regular-expression `.` does not match. */
  predicate IsLineTerminator(c: char)
  {
    c == '\U{000A}' || c == '\U{000D}' || c == '\U{2028}' || c == '\U{2029}'
  }

  /** The `Diacritic` property, for code points below U+0370. */
  predicate IsDiacritic(c: char)
  {
    || c == '\U{005E}' || c == '\U{0060}' || c == '\U{00A8}' || c == '\U{00AF}'
    || c == '\U{00B4}' || c == '\U{00B7}' || c == '\U{00B8}'
    || ('\U{02B0}' <= c <= '\U{034E}')
    || ('\U{0350}' <= c <= '\U{0357}')
    || ('\U{035D}' <= c <= '\U{0362}')
  }

  /**
   * The full canonical decomposition of one code point: for every code point below U+0370
   * that has one, the Unicode Character Database's decomposition applied until it is stable;
   * every other code point stands for itself.
   */
  function Decompose(c: char): seq<char>
  {
    if c < '\U{00C0}' then [c]
    else if c <= '\U{00FF}' then Latin1Supplement(c)
    else if c <= '\U{017F}' then LatinExtendedA(c)
    else if c <= '\U{024F}' then LatinExtendedB(c)
    else if '\U{0300}' <= c <= '\U{036F}' then CombiningMarks(c)
    else [c]
  }

  /** Decompositions in the Latin-1 Supplement block (U+00C0 to U+00FF). */
  function Latin1Supplement(c: char): seq<char>
    requires '\U{00C0}' <= c <= '\U{00FF}'
  {
    match c
    case '\U{00C0}' => ['A', '\U{0300}']
    case '\U{00C1}' => ['A', '\U{0301}']
    case '\U{00C2}' => ['A', '\U{0302}']
    case '\U{00C3}' => ['A', '\U{0303}']
    case '\U{00C4}' => ['A', '\U{0308}']
    case '\U{00C5}' => ['A', '\U{030A}']
    case '\U{00C7}' => ['C', '\U{0327}']
    case '\U{00C8}' => ['E', '\U{0300}']
    case '\U{00C9}' => ['E', '\U{0301}']
    case '\U{00CA}' => ['E', '\U{0302}']
    case '\U{00CB}' => ['E', '\U{0308}']
    case '\U{00CC}' => ['I', '\U{0300}']
    case '\U{00CD}' => ['I', '\U{0301}']
    case '\U{00CE}' => ['I', '\U{0302}']
    case '\U{00CF}' => ['I', '\U{0308}']
    case '\U{00D1}' => ['N', '\U{0303}']
    case '\U{00D2}' => ['O', '\U{0300}']
    case '\U{00D3}' => ['O', '\U{0301}']
    case '\U{00D4}' => ['O', '\U{0302}']
    case '\U{00D5}' => ['O', '\U{0303}']
    case '\U{00D6}' => ['O', '\U{0308}']
    case '\U{00D9}' => ['U', '\U{0300}']
    case '\U{00DA}' => ['U', '\U{0301}']
    case '\U{00DB}' => ['U', '\U{0302}']
    case '\U{00DC}' => ['U', '\U{0308}']
    case '\U{00DD}' => ['Y', '\U{0301}']
    case '\U{00E0}' => ['a', '\U{0300}']
    case '\U{00E1}' => ['a', '\U{0301}']
    case '\U{00E2}' => ['a', '\U{0302}']
    case '\U{00E3}' => ['a', '\U{0303}']
    case '\U{00E4}' => ['a', '\U{0308}']
    case '\U{00E5}' => ['a', '\U{030A}']
    case '\U{00E7}' => ['c', '\U{0327}']
    case '\U{00E8}' => ['e', '\U{0300}']
    case '\U{00E9}' => ['e', '\U{0301}']
    case '\U{00EA}' => ['e', '\U{0302}']
    case '\U{00EB}' => ['e', '\U{0308}']
    case '\U{00EC}' => ['i', '\U{0300}']
    case '\U{00ED}' => ['i', '\U{0301}']
    case '\U{00EE}' => ['i', '\U{0302}']
    case '\U{00EF}' => ['i', '\U{0308}']
    case '\U{00F1}' => ['n', '\U{0303}']
    case '\U{00F2}' => ['o', '\U{0300}']
    case '\U{00F3}' => ['o', '\U{0301}']
    case '\U{00F4}' => ['o', '\U{0302}']
    case '\U{00F5}' => ['o', '\U{0303}']
    case '\U{00F6}' => ['o', '\U{0308}']
    case '\U{00F9}' => ['u', '\U{0300}']
    case '\U{00FA}' => ['u', '\U{0301}']
    case '\U{00FB}' => ['u', '\U{0302}']
    case '\U{00FC}' => ['u', '\U{0308}']
    case '\U{00FD}' => ['y', '\U{0301}']
    case '\U{00FF}' => ['y', '\U{0308}']
    case _ => [c]
  }

  /** Decompositions in the Latin Extended-A block (U+0100 to U+017F). */
  function LatinExtendedA(c: char): seq<char>
    requires '\U{0100}' <= c <= '\U{017F}'
  {
    match c
    case '\U{0100}' => ['A', '\U{0304}']
    case '\U{0101}' => ['a', '\U{0304}']
    case '\U{0102}' => ['A', '\U{0306}']
    case '\U{0103}' => ['a', '\U{0306}']
    case '\U{0104}' => ['A', '\U{0328}']
    case '\U{0105}' => ['a', '\U{0328}']
    case '\U{0106}' => ['C', '\U{0301}']
    case '\U{0107}' => ['c', '\U{0301}']
    case '\U{0108}' => ['C', '\U{0302}']
    case '\U{0109}' => ['c', '\U{0302}']
    case '\U{010A}' => ['C', '\U{0307}']
    case '\U{010B}' => ['c', '\U{0307}']
    case '\U{010C}' => ['C', '\U{030C}']
    case '\U{010D}' => ['c', '\U{030C}']
    case '\U{010E}' => ['D', '\U{030C}']
    case '\U{010F}' => ['d', '\U{030C}']
    case '\U{0112}' => ['E', '\U{0304}']
    case '\U{0113}' => ['e', '\U{0304}']
    case '\U{0114}' => ['E', '\U{0306}']
    case '\U{0115}' => ['e', '\U{0306}']
    case '\U{0116}' => ['E', '\U{0307}']
    case '\U{0117}' => ['e', '\U{0307}']
    case '\U{0118}' => ['E', '\U{0328}']
    case '\U{0119}' => ['e', '\U{0328}']
    case '\U{011A}' => ['E', '\U{030C}']
    case '\U{011B}' => ['e', '\U{030C}']
    case '\U{011C}' => ['G', '\U{0302}']
    case '\U{011D}' => ['g', '\U{0302}']
    case '\U{011E}' => ['G', '\U{0306}']
    case '\U{011F}' => ['g', '\U{0306}']
    case '\U{0120}' => ['G', '\U{0307}']
    case '\U{0121}' => ['g', '\U{0307}']
    case '\U{0122}' => ['G', '\U{0327}']
    case '\U{0123}' => ['g', '\U{0327}']
    case '\U{0124}' => ['H', '\U{0302}']
    case '\U{0125}' => ['h', '\U{0302}']
    case '\U{0128}' => ['I', '\U{0303}']
    case '\U{0129}' => ['i', '\U{0303}']
    case '\U{012A}' => ['I', '\U{0304}']
    case '\U{012B}' => ['i', '\U{0304}']
    case '\U{012C}' => ['I', '\U{0306}']
    case '\U{012D}' => ['i', '\U{0306}']
    case '\U{012E}' => ['I', '\U{0328}']
    case '\U{012F}' => ['i', '\U{0328}']
    case '\U{0130}' => ['I', '\U{0307}']
    case '\U{0134}' => ['J', '\U{0302}']
    case '\U{0135}' => ['j', '\U{0302}']
    case '\U{0136}' => ['K', '\U{0327}']
    case '\U{0137}' => ['k', '\U{0327}']
    case '\U{0139}' => ['L', '\U{0301}']
    case '\U{013A}' => ['l', '\U{0301}']
    case '\U{013B}' => ['L', '\U{0327}']
    case '\U{013C}' => ['l', '\U{0327}']
    case '\U{013D}' => ['L', '\U{030C}']
    case '\U{013E}' => ['l', '\U{030C}']
    case '\U{0143}' => ['N', '\U{0301}']
    case '\U{0144}' => ['n', '\U{0301}']
    case '\U{0145}' => ['N', '\U{0327}']
    case '\U{0146}' => ['n', '\U{0327}']
    case '\U{0147}' => ['N', '\U{030C}']
    case '\U{0148}' => ['n', '\U{030C}']
    case '\U{014C}' => ['O', '\U{0304}']
    case '\U{014D}' => ['o', '\U{0304}']
    case '\U{014E}' => ['O', '\U{0306}']
    case '\U{014F}' => ['o', '\U{0306}']
    case '\U{0150}' => ['O', '\U{030B}']
    case '\U{0151}' => ['o', '\U{030B}']
    case '\U{0154}' => ['R', '\U{0301}']
    case '\U{0155}' => ['r', '\U{0301}']
    case '\U{0156}' => ['R', '\U{0327}']
    case '\U{0157}' => ['r', '\U{0327}']
    case '\U{0158}' => ['R', '\U{030C}']
    case '\U{0159}' => ['r', '\U{030C}']
    case '\U{015A}' => ['S', '\U{0301}']
    case '\U{015B}' => ['s', '\U{0301}']
    case '\U{015C}' => ['S', '\U{0302}']
    case '\U{015D}' => ['s', '\U{0302}']
    case '\U{015E}' => ['S', '\U{0327}']
    case '\U{015F}' => ['s', '\U{0327}']
    case '\U{0160}' => ['S', '\U{030C}']
    case '\U{0161}' => ['s', '\U{030C}']
    case '\U{0162}' => ['T', '\U{0327}']
    case '\U{0163}' => ['t', '\U{0327}']
    case '\U{0164}' => ['T', '\U{030C}']
    case '\U{0165}' => ['t', '\U{030C}']
    case '\U{0168}' => ['U', '\U{0303}']
    case '\U{0169}' => ['u', '\U{0303}']
    case '\U{016A}' => ['U', '\U{0304}']
    case '\U{016B}' => ['u', '\U{0304}']
    case '\U{016C}' => ['U', '\U{0306}']
    case '\U{016D}' => ['u', '\U{0306}']
    case '\U{016E}' => ['U', '\U{030A}']
    case '\U{016F}' => ['u', '\U{030A}']
    case '\U{0170}' => ['U', '\U{030B}']
    case '\U{0171}' => ['u', '\U{030B}']
    case '\U{0172}' => ['U', '\U{0328}']
    case '\U{0173}' => ['u', '\U{0328}']
    case '\U{0174}' => ['W', '\U{0302}']
    case '\U{0175}' => ['w', '\U{0302}']
    case '\U{0176}' => ['Y', '\U{0302}']
    case '\U{0177}' => ['y', '\U{0302}']
    case '\U{0178}' => ['Y', '\U{0308}']
    case '\U{0179}' => ['Z', '\U{0301}']
    case '\U{017A}' => ['z', '\U{0301}']
    case '\U{017B}' => ['Z', '\U{0307}']
    case '\U{017C}' => ['z', '\U{0307}']
    case '\U{017D}' => ['Z', '\U{030C}']
    case '\U{017E}' => ['z', '\U{030C}']
    case _ => [c]
  }

  /** Decompositions in the Latin Extended-B block (U+0180 to U+024F). */
  function LatinExtendedB(c: char): seq<char>
    requires '\U{0180}' <= c <= '\U{024F}'
  {
    match c
    case '\U{01A0}' => ['O', '\U{031B}']
    case '\U{01A1}' => ['o', '\U{031B}']
    case '\U{01AF}' => ['U', '\U{031B}']
    case '\U{01B0}' => ['u', '\U{031B}']
    case '\U{01CD}' => ['A', '\U{030C}']
    case '\U{01CE}' => ['a', '\U{030C}']
    case '\U{01CF}' => ['I', '\U{030C}']
    case '\U{01D0}' => ['i', '\U{030C}']
    case '\U{01D1}' => ['O', '\U{030C}']
    case '\U{01D2}' => ['o', '\U{030C}']
    case '\U{01D3}' => ['U', '\U{030C}']
    case '\U{01D4}' => ['u', '\U{030C}']
    case '\U{01D5}' => ['U', '\U{0308}', '\U{0304}']
    case '\U{01D6}' => ['u', '\U{0308}', '\U{0304}']
    case '\U{01D7}' => ['U', '\U{0308}', '\U{0301}']
    case '\U{01D8}' => ['u', '\U{0308}', '\U{0301}']
    case '\U{01D9}' => ['U', '\U{0308}', '\U{030C}']
    case '\U{01DA}' => ['u', '\U{0308}', '\U{030C}']
    case '\U{01DB}' => ['U', '\U{0308}', '\U{0300}']
    case '\U{01DC}' => ['u', '\U{0308}', '\U{0300}']
    case '\U{01DE}' => ['A', '\U{0308}', '\U{0304}']
    case '\U{01DF}' => ['a', '\U{0308}', '\U{0304}']
    case '\U{01E0}' => ['A', '\U{0307}', '\U{0304}']
    case '\U{01E1}' => ['a', '\U{0307}', '\U{0304}']
    case '\U{01E2}' => ['\U{00C6}', '\U{0304}']
    case '\U{01E3}' => ['\U{00E6}', '\U{0304}']
    case '\U{01E6}' => ['G', '\U{030C}']
    case '\U{01E7}' => ['g', '\U{030C}']
    case '\U{01E8}' => ['K', '\U{030C}']
    case '\U{01E9}' => ['k', '\U{030C}']
    case '\U{01EA}' => ['O', '\U{0328}']
    case '\U{01EB}' => ['o', '\U{0328}']
    case '\U{01EC}' => ['O', '\U{0328}', '\U{0304}']
    case '\U{01ED}' => ['o', '\U{0328}', '\U{0304}']
    case '\U{01EE}' => ['\U{01B7}', '\U{030C}']
    case '\U{01EF}' => ['\U{0292}', '\U{030C}']
    case '\U{01F0}' => ['j', '\U{030C}']
    case '\U{01F4}' => ['G', '\U{0301}']
    case '\U{01F5}' => ['g', '\U{0301}']
    case '\U{01F8}' => ['N', '\U{0300}']
    case '\U{01F9}' => ['n', '\U{0300}']
    case '\U{01FA}' => ['A', '\U{030A}', '\U{0301}']
    case '\U{01FB}' => ['a', '\U{030A}', '\U{0301}']
    case '\U{01FC}' => ['\U{00C6}', '\U{0301}']
    case '\U{01FD}' => ['\U{00E6}', '\U{0301}']
    case '\U{01FE}' => ['\U{00D8}', '\U{0301}']
    case '\U{01FF}' => ['\U{00F8}', '\U{0301}']
    case '\U{0200}' => ['A', '\U{030F}']
    case '\U{0201}' => ['a', '\U{030F}']
    case '\U{0202}' => ['A', '\U{0311}']
    case '\U{0203}' => ['a', '\U{0311}']
    case '\U{0204}' => ['E', '\U{030F}']
    case '\U{0205}' => ['e', '\U{030F}']
    case '\U{0206}' => ['E', '\U{0311}']
    case '\U{0207}' => ['e', '\U{0311}']
    case '\U{0208}' => ['I', '\U{030F}']
    case '\U{0209}' => ['i', '\U{030F}']
    case '\U{020A}' => ['I', '\U{0311}']
    case '\U{020B}' => ['i', '\U{0311}']
    case '\U{020C}' => ['O', '\U{030F}']
    case '\U{020D}' => ['o', '\U{030F}']
    case '\U{020E}' => ['O', '\U{0311}']
    case '\U{020F}' => ['o', '\U{0311}']
    case '\U{0210}' => ['R', '\U{030F}']
    case '\U{0211}' => ['r', '\U{030F}']
    case '\U{0212}' => ['R', '\U{0311}']
    case '\U{0213}' => ['r', '\U{0311}']
    case '\U{0214}' => ['U', '\U{030F}']
    case '\U{0215}' => ['u', '\U{030F}']
    case '\U{0216}' => ['U', '\U{0311}']
    case '\U{0217}' => ['u', '\U{0311}']
    case '\U{0218}' => ['S', '\U{0326}']
    case '\U{0219}' => ['s', '\U{0326}']
    case '\U{021A}' => ['T', '\U{0326}']
    case '\U{021B}' => ['t', '\U{0326}']
    case '\U{021E}' => ['H', '\U{030C}']
    case '\U{021F}' => ['h', '\U{030C}']
    case '\U{0226}' => ['A', '\U{0307}']
    case '\U{0227}' => ['a', '\U{0307}']
    case '\U{0228}' => ['E', '\U{0327}']
    case '\U{0229}' => ['e', '\U{0327}']
    case '\U{022A}' => ['O', '\U{0308}', '\U{0304}']
    case '\U{022B}' => ['o', '\U{0308}', '\U{0304}']
    case '\U{022C}' => ['O', '\U{0303}', '\U{0304}']
    case '\U{022D}' => ['o', '\U{0303}', '\U{0304}']
    case '\U{022E}' => ['O', '\U{0307}']
    case '\U{022F}' => ['o', '\U{0307}']
    case '\U{0230}' => ['O', '\U{0307}', '\U{0304}']
    case '\U{0231}' => ['o', '\U{0307}', '\U{0304}']
    case '\U{0232}' => ['Y', '\U{0304}']
    case '\U{0233}' => ['y', '\U{0304}']
    case _ => [c]
  }

  /** Decompositions in the Combining Diacritical Marks block (U+0300 to U+036F). */
  function CombiningMarks(c: char): seq<char>
    requires '\U{0300}' <= c <= '\U{036F}'
  {
    match c
    case '\U{0340}' => ['\U{0300}']
    case '\U{0341}' => ['\U{0301}']
    case '\U{0343}' => ['\U{0313}']
    case '\U{0344}' => ['\U{0308}', '\U{0301}']
    case _ => [c]
  }
}

=== FILE: wrappers.dfy ===
/** Optional values (TypeScript's `T | undefined`) and results of operations that may throw. */
module Wrappers {

  datatype Option<+T> = None | Some(value: T)

  datatype Result<+T, +E> = Success(value: T) | Failure(error: E)
}
